=== FILE: README.md ===
# reactfire caches and decisions, in Dafny

This project models the non-React core of reactfire, the React bindings for
Firebase. It covers these parts:

- **The observable cache**, in both revisions: `src/useObservable/observableCache.ts` (current) and
  `useObservable/observableCache.ts` (older). It has two levels:
  - a registry from an observable id to at most one `CacheEntry`;
  - per entry, a state machine. Each entry wraps one shared subscription to a source, holds the read cell
    that suspends, returns the latest value or throws, and removes itself from the registry once nothing
    holds it.
- **The request cache** (`src/useObservable/requestCache.ts`): promises keyed by request id, and the
  suspend/throw/return decision of `usePreloadedRequest`.
- **Two resource cells:**
  - `src/resource/index.ts`: the settle-once `Resource` and the mapping of `then`/`catch`. An executor
    that throws before settling rejects the native promise behind the resource but leaves its result
    unset, so `read()` suspends while `then` sees the rejection;
  - `resource/index.ts`: the outcome-capturing `resourcify`.
- **The Firestore `QueryCache`** (`src/firestore/index.tsx`):
  - the options-hash bucket;
  - lookup by identity and then by `isEqual`;
  - the skip-cached-snapshots filter;
  - the document key.
- **The auth claims decision** of `ClaimsCheck` / `AuthCheck`, in both revisions.

Everything is an immutable datatype with pure functions.

- **Object identity** (cache entries, requests, queries) is a natural-number reference. A counter in the
  state stands for the allocator, so every `new` yields a fresh reference.
- **rxjs pipelines** are modelled by their effect, not their code. The shared subscription is
  reference-counted. Its holders are:
  - the entry's internal first-value waiter;
  - downstream subscribers;
  - pending deferred unsubscribes, each with a deadline.
- **Time** is an explicit clock. `TimerFires` runs the oldest deferred unsubscribe once its deadline
  (`grace` = 1000 after the holder left) has been reached.
- **Entry events** are the source's value, error and completion, plus subscribe, unsubscribe and a
  timer firing. A step reports how many times it called `removeObservable`.
- **`ObservableWorld`** composes the registry with a heap of entries.
  - `createDedupedObservable` constructs the entry before it stores it, and the constructor already
    subscribes the source. So a source that completes synchronously, or in the older revision errors
    synchronously, tears the entry down before the `set`. In the current revision a synchronous error
    becomes an ordinary emission, and the entry stays open.
    The teardown's removal requests find the id absent and do nothing, and the closed entry is then stored.
    The world records such entries as born closed.
  - Every other registered id maps to a live entry that subscribed its source exactly once, in every
    reachable world.

The two revisions of `CacheEntry` behave differently, and the model keeps both:

- **Current revision.**
  - `resourcify` turns a source error into an ordinary emission of a throwing resource, so an error
    leaves the entry registered until its deferred unsubscribes fire.
  - Every holder's release is deferred by 1000.
  - Completion of the source tears the entry down at once.
- **Older revision.**
  - Only the first-value waiter is deferred, so the last downstream subscriber leaving tears the entry
    down at once.
  - A source error or completion ends the chain immediately.
  - `withCleanup` runs the cleanup twice per teardown, and the identity guard in `removeObservable`
    makes the second call harmless.

The code and its test disagree in one place. In the older test
`useObservable/observableCache.test.ts`, line 89 expects the registry to still hold the entry right after
`subject.error(...)`. In the code, the error reaches `finalize(cleanup)` inside `withCleanup`, which
removes the entry at that moment. The model follows the code: `ObservableScenarios.LegacyErrorRemovesAtOnce`
shows the removal request at the error. The current revision's version of that test (lines 96-114 of
`src/useObservable/observableCache.test.ts`) agrees with its code; see
`ObservableScenarios.ErrorWaitsThenRemoves`.

Modules, one file each: `Base` (Option, Result), `Js` (JavaScript values, truthiness, `typeof`),
`ReadCell`, `ObservableRegistry`, `EntryState`, `CacheEntry`, `LegacyCacheEntry`, `ObservableWorld`,
`ObservableScenarios`, `RequestCache`, `Resource`, `Resourcify`, `QueryCache`, `Auth`.

## Model

| member | source | states |
|---|---|---|
| ObservableRegistry.GetObservable | reactfire/src/useObservable/observableCache.ts:72-78 | succeeds exactly when the id is registered and then yields the stored entry; otherwise fails with `No observable with ID "<id>" exists` |
| ObservableRegistry.CreateDeduped | reactfire/src/useObservable/observableCache.ts:80-92 | the factory is called exactly when the id is absent; a repeated id returns the stored entry with the registry unchanged; a new id binds a fresh entry and grows the size by exactly one |
| ObservableRegistry.CreateDedupedOrThrow | reactfire/src/useObservable/observableCache.ts:84-88 | fails exactly when the id is absent and the factory throws, with the thrown value and nothing stored; otherwise acts as `createDedupedObservable` |
| ObservableRegistry.ThrowingFactoryLeavesNoEntry | reactfire/src/useObservable/observableCache.ts:84-88 | after a throwing factory, the next call for the same id calls the factory again and stores its entry |
| ObservableRegistry.RemoveObservable | reactfire/src/useObservable/observableCache.ts:94-98 | the id is deleted only when it still maps to that exact instance; otherwise nothing changes |
| ObservableRegistry.GetAfterCreate | reactfire/useObservable/observableCache.ts:75-95 | `getObservable` finds under the id exactly the entry `createDedupedObservable` returned |
| ObservableRegistry.RemoveIdempotent | reactfire/useObservable/observableCache.ts:97-101 | a second removal by the same instance changes nothing, so the double cleanup of `withCleanup` is harmless |
| ObservableRegistry.StaleRemovalKeepsFreshEntry | reactfire/src/useObservable/observableCache.ts:94-98 | after an id is re-created for a new entry, an old entry's removal leaves the new one registered |
| ObservableRegistry.RemoveKeepsOtherIds | reactfire/useObservable/observableCache.ts:97-101 | removal touches only its own id; every other binding survives |
| EntryState.Create | reactfire/src/useObservable/observableCache.ts:43-61 | a new entry suspends readers, is held only by its first-value waiter (no subscriber, no pending timer), is open, and has subscribed its source once |
| EntryState.Attach | reactfire/src/useObservable/observableCache.ts:54 | a subscriber joins an open shared subscription without touching the source; on a closed one it opens a new subscription to the source; either way the read cell, the pending timers and the waiter are kept |
| EntryState.Disconnected | reactfire/src/useObservable/observableCache.ts:52-55 | teardown leaves no holder and keeps the read cell |
| EntryState.PushKeepsTimers | reactfire/src/useObservable/observableCache.ts:14-18 | adding a deadline `now + grace` keeps the timer queue ordered and within `grace` of the clock |
| EntryState.ValidLater | reactfire/src/useObservable/observableCache.ts:14-18 | the entry invariant survives the clock moving forward |
| CacheEntry.Resourcify | reactfire/src/useObservable/observableCache.ts:22-36 | never forwards an error: a value becomes a resource that returns it, an error becomes one that throws it; only completion passes through |
| CacheEntry.Step | reactfire/src/useObservable/observableCache.ts:38-63 | each event keeps the entry invariant; removal is requested exactly once, and exactly when the shared subscription closes; the source is subscribed again only by a subscriber arriving after teardown; only a source value or error changes the read cell |
| CacheEntry.ReadFollowsSource | reactfire/src/useObservable/observableCache.ts:22-36 | on an open entry, a value makes `read()` return it and an error makes it throw it, with no teardown |
| CacheEntry.ReadsLatestValue | reactfire/src/useObservable/observableCache.ts:53 | after any run of values, `read()` returns the last one |
| CacheEntry.SuspendsThenThrows | reactfire/src/useObservable/observableCache.ts:44-48 | a new entry suspends; after an error it throws that error and stays connected |
| CacheEntry.UnsubscribeIsDeferred | reactfire/src/useObservable/observableCache.ts:5-19 | an unsubscribe never tears down at once; it leaves a timer due `grace` later |
| CacheEntry.HeldEntryStays | reactfire/src/useObservable/observableCache.ts:52-55 | while a subscriber or the waiter holds the entry, no event other than completion requests removal |
| CacheEntry.SourceEndTearsDown | reactfire/src/useObservable/observableCache.ts:38-63 | completion of the source closes an open entry at once, whoever holds it, with one removal request, keeping the read cell |
| CacheEntry.TimerTeardownIsLast | reactfire/src/useObservable/observableCache.ts:14-18 | a timer tears the entry down, with one removal request, exactly when no one is attached, it is the last pending timer, and its deadline has passed |
| CacheEntry.ReattachKeepsSubscription | reactfire/src/useObservable/observableCache.ts:54-55 | subscribing during the grace period reuses the open subscription and leaves the cell alone |
| CacheEntry.OneSourceSubscription | reactfire/src/useObservable/observableCache.ts:54 | any number of subscribers on an open entry leave the source subscribed only once |
| LegacyCacheEntry.Step | reactfire/useObservable/observableCache.ts:32-66 | each event keeps the entry invariant; a teardown requests removal exactly twice, and exactly when the shared subscription closes; only a source value or error changes the read cell |
| LegacyCacheEntry.ReadFollowsSource | reactfire/useObservable/observableCache.ts:38-55 | a value makes `read` return it, an error makes it throw it, completion keeps the last state |
| LegacyCacheEntry.SourceEndTearsDown | reactfire/useObservable/observableCache.ts:21-30 | a source error or completion closes the shared subscription at once, with two removal requests |
| LegacyCacheEntry.TimerTeardownIsLast | reactfire/useObservable/observableCache.ts:13-30 | the waiter's timer tears the entry down, with two removal requests, exactly when no subscriber is attached, it is the only pending timer, and its deadline has passed |
| LegacyCacheEntry.LastSubscriberLeavesAtOnce | reactfire/useObservable/observableCache.ts:56-64 | once the waiter's timer has fired, the last subscriber leaving tears the entry down immediately |
| LegacyCacheEntry.PendingWaiterTimerHolds | reactfire/useObservable/observableCache.ts:59-64 | while the waiter's deferred unsubscribe is pending, a subscriber leaving tears nothing down |
| LegacyCacheEntry.OneSourceSubscription | reactfire/useObservable/observableCache.ts:56 | any number of subscribers share the one subscription to the source |
| ObservableWorld.StepEntry | reactfire/useObservable/observableCache.ts:32-66 | in either revision, a step keeps the entry invariant and requests removal exactly when it closes the shared subscription |
| ObservableWorld.RemoveTimes | reactfire/useObservable/observableCache.ts:21-30 | any positive number of removal requests by one entry has the effect of a single one |
| ObservableWorld.Construct | reactfire/src/useObservable/observableCache.ts:43-61 | the constructor's synchronous source events leave a valid entry that subscribed its source once; it is closed exactly when one of them requested removal, and with no such event it is the fresh entry |
| ObservableWorld.PreloadNew | reactfire/src/useObservable/observableCache.ts:84-88 | for an absent id, the entry is constructed first, its removal requests meet the registry without the id, and the entry is then stored even if closed; the invariant is kept |
| ObservableWorld.Apply | reactfire/src/useObservable/observableCache.ts:80-98 | preloading (with the source's synchronous events), delivering an event and letting time pass keep every registered id bound to an entry that, unless born closed, is open and subscribed its source exactly once |
| ObservableWorld.Run | reactfire/src/useObservable/observableCache.ts:80-98 | that invariant, including entries born closed, holds after any sequence of actions |
| ObservableWorld.PreloadDedups | reactfire/src/useObservable/observableCache.test.ts:7-19 | preloading a registered id changes nothing; a new id adds exactly that id, bound to a new entry, whatever the source does synchronously; with no synchronous event that entry is open and suspends |
| ObservableWorld.SynchronousEndLeavesClosedEntry | reactfire/src/useObservable/observableCache.ts:84-88 | a source that completes synchronously (current) or fails synchronously (older) leaves its id registered to a closed entry |
| ObservableWorld.RegisteredEntrySubscribedOnce | reactfire/src/useObservable/observableCache.test.ts:117-135 | from the empty registry, after any actions, each registered entry not born closed is open and has subscribed its source exactly once, and a registered entry that is closed was born closed |
| ObservableWorld.HeldEntryStaysRegistered | reactfire/src/useObservable/observableCache.test.ts:48-72 | in the current revision, an entry with a subscriber or its waiter stays registered under the same reference through any action except its source completing |
| ObservableScenarios.StaysUntilAfterFirstValue | reactfire/src/useObservable/observableCache.test.ts:33-46 | no removal before the first value, then removal when the waiter's timer fires |
| ObservableScenarios.StaysWhileSubscribed | reactfire/src/useObservable/observableCache.test.ts:48-72 | a subscriber keeps the entry past the waiter's timer and past its own unsubscribe, until its own timer fires |
| ObservableScenarios.ErrorWaitsThenRemoves | reactfire/src/useObservable/observableCache.test.ts:96-114 | read returns the value, then throws the error with the entry kept, and removal follows the timer |
| ObservableScenarios.SubscribesSourceOnce | reactfire/src/useObservable/observableCache.test.ts:117-135 | two extra subscribers leave the source subscribed once |
| ObservableScenarios.LegacyRemovesAfterResolving | reactfire/useObservable/observableCache.test.ts:22-31 | the first value does not remove the entry; the waiter's timer does |
| ObservableScenarios.LegacyStaysWhileSubscribed | reactfire/useObservable/observableCache.test.ts:33-52 | read returns 42; a subscriber keeps the entry past the waiter's timer, and its unsubscribe removes it |
| ObservableScenarios.LegacyErrorRemovesAtOnce | reactfire/useObservable/observableCache.ts:21-30 | read returns the value, then throws the error, and the error itself requests removal twice |
| RequestCache.NewRequest | reactfire/src/useObservable/requestCache.ts:7-8 | a new request is incomplete, with value and error undefined |
| RequestCache.SetValue | reactfire/src/useObservable/requestCache.ts:20-23 | stores the value and completes the request; the error is kept |
| RequestCache.SetError | reactfire/src/useObservable/requestCache.ts:25-28 | stores the error and completes the request; the value is kept |
| RequestCache.OnSettled | reactfire/src/useObservable/requestCache.ts:9-17 | settling completes the request and records a fulfilment value as value and a rejection reason as error |
| RequestCache.GetRequest | reactfire/src/useObservable/requestCache.ts:45-51 | succeeds exactly for a present id; otherwise fails with `No request with ID "<id>" exists` |
| RequestCache.CreateRequest | reactfire/src/useObservable/requestCache.ts:53-62 | fails with `request "<id>" is already in use.` exactly when the id is present; otherwise binds exactly that id to a fresh, incomplete request |
| RequestCache.CreateDedupedRequest | reactfire/src/useObservable/requestCache.ts:64-72 | the promise is requested exactly when the id is absent; otherwise the existing request is returned with nothing changed |
| RequestCache.CreateDedupedRequestOrThrow | reactfire/src/useObservable/requestCache.ts:64-72 | fails exactly when the id is absent and `getPromise` throws, with the thrown value and nothing stored; otherwise acts as `createDedupedRequest` |
| RequestCache.ThrowingGetPromiseLeavesNoRequest | reactfire/src/useObservable/requestCache.ts:64-72 | after a throwing `getPromise`, the next call for the same id asks for a promise again and stores its request |
| RequestCache.RemoveRequest | reactfire/src/useObservable/requestCache.ts:74-76 | deletes only that id, leaves the requests themselves, and is a no-op for an absent id |
| RequestCache.Settle | reactfire/src/useObservable/requestCache.ts:9-17 | a promise settles its own incomplete request once, leaving every other request and every id binding alone |
| RequestCache.PreloadRequest | reactfire/src/useObservable/requestCache.ts:81-91 | returns the requested id unchanged, paired with the deduplicated request |
| RequestCache.UsePreloadedRequest | reactfire/src/useObservable/requestCache.ts:93-106 | an unknown id throws the lookup error; an incomplete request suspends; a complete one throws exactly when its error is truthy, and otherwise returns its value |
| RequestCache.PreloadThenFulfil | reactfire/src/useObservable/requestCache.ts:81-106 | a preloaded request suspends until its promise fulfils with v, then returns v |
| RequestCache.PreloadThenReject | reactfire/src/useObservable/requestCache.ts:93-106 | a truthy rejection is rethrown; a falsy one falls through to the never-set value, undefined |
| RequestCache.CreateTwice | reactfire/src/useObservable/requestCache.ts:53-72 | after a dedup create, `createRequest` of the same id fails and a second dedup create returns the same request |
| RequestCache.RemoveThenGet | reactfire/src/useObservable/requestCache.ts:45-76 | after removal, `getRequest` fails for that id and answers as before for every other id |
| Resource.PromiseLikeIsThenableObject | reactfire/src/resource/index.ts:5-7 | promise-like holds exactly for non-null objects whose `then` is callable, never for functions or primitives |
| Resource.Deliver | reactfire/src/resource/index.ts:20-34 | a settled resource ignores every call; a reject or a non-thenable resolve sets the result, and settles the native promise too unless that has already settled; a thenable resolve leaves both unset and follows the thenable |
| Resource.PromiseTracksResult | reactfire/src/resource/index.ts:20-34 | while the native promise has not settled on its own, it settles exactly when, and as, the result does |
| Resource.PromiseSettledStays | reactfire/src/resource/index.ts:20-34 | once the native promise has settled, no later callback changes it |
| Resource.SettledStaysSettled | reactfire/src/resource/index.ts:20-34 | once the result is set, no sequence of later calls changes it |
| Resource.FirstSettlingCallWins | reactfire/src/resource/index.ts:20-34 | the result stays unset exactly when no call settles; otherwise it is the first settling call's outcome |
| Resource.SuccessIsNeverPromiseLike | reactfire/src/resource/index.ts:22-26 | a success result never holds a promise-like value |
| Resource.Construct | reactfire/src/resource/index.ts:13-41 | for an executor that returns, a new resource is unsettled exactly when no executor call settles it; otherwise it holds the first settling call's outcome, and its native promise agrees with its result |
| Resource.ConstructOrThrow | reactfire/src/resource/index.ts:19-37 | an executor's throw never sets the result; it rejects the native promise with the thrown value when nothing settled first, and changes nothing after a settling call |
| Resource.ThrowingExecutorStrandsRead | reactfire/src/resource/index.ts:19-47 | after a throw before any settling call, `read()` suspends while the native promise is rejected, so `then` without a rejection handler yields the thrown value, and no later callback changes the promise |
| Resource.Read | reactfire/src/resource/index.ts:43-47 | `read()` suspends exactly without a result, returns the value of a success and throws the error of a failure |
| Resource.StaticConstructors | reactfire/src/resource/index.ts:81-89 | `Resource.resolve(v)` reads as v at once unless v is promise-like, in which case it suspends; `Resource.reject(e)` throws e at once |
| Resource.LaterDirectCallBeatsThenable | reactfire/src/resource/index.ts:20-36 | resolving with a thenable and then rejecting settles as the rejection, and the thenable's later callback is ignored |
| Resource.ThenSettlement | reactfire/src/resource/index.ts:49-69 | a missing handler passes the settlement through; a present handler on the matching side is applied, its value fulfilling unless the native promise adopts it, its throw rejecting |
| Resource.HandlerSettlement | reactfire/src/resource/index.ts:68 | a handler's throw rejects; a returned object or function with a callable `then` is adopted, leaving the outcome to it; any other value fulfils |
| Resource.AdoptionIsWiderThanPromiseLike | reactfire/src/resource/index.ts:5-7 | every promise-like value is adopted by a native promise, and the values adopted but not promise-like are exactly the functions with a callable `then` |
| Resource.CatchSettlement | reactfire/src/resource/index.ts:71-75 | `catch(g)` passes a success through and applies g to a failure |
| Resource.ThenSplits | reactfire/src/resource/index.ts:49-75 | `then(f, g)` is `then(f)` on a success and `catch(g)` on a failure; `then()` with no handler is the identity |
| Resource.EagerThenAgrees | reactfire/src/resource/index.ts:53-68 | the eager `then` in the comment agrees with the promise-based one when the handler returns a plain value; a throwing handler rejects the promise-based one and the eager one's promise, while the eager one's result stays unset |
| Resource.DerivedResourceSettlesLater | reactfire/src/resource/index.ts:68-75 | the resource `then`/`catch` return suspends until the derived promise calls back, then reads as its settlement |
| Resource.MappingExamples | reactfire/src/resource/resource.test.ts:12-41 | 8 then +1 is 9; a rejection 3 caught with +1 is 4; then(null, -1) on 1 is 0; a throwing handler rejects with 5; a catch that rethrows doubled rejects with 8 |
| Resource.HandlersApplyToTheirSide | reactfire/src/resource/index.ts:49-75 | a rejection handler never touches a success and a fulfilment handler never touches a failure; `then(f)` alone, `catch(g)` alone and `then(f, g)` each apply the matching handler |
| Resourcify.Read | reactfire/resource/index.ts:24-34 | reading returns normally exactly when the call's outcome was a value |
| Resourcify.WrappedCall | reactfire/resource/index.ts:20-36 | runs `func` once, eagerly, and captures the outcome as a value, never a throw; reading replays the captured value or error |
| Resourcify.ReplaysOutcome | reactfire/resource/index.ts:21-36 | the wrapper's state is what the single `func` call left; `read()` returns a returned t and rethrows a thrown err |
| Resourcify.EachCallRunsFunc | reactfire/resource/index.ts:21-23 | two wrapped calls run `func` twice: outcomes are captured per call |
| QueryCache.HashOptions | reactfire/src/firestore/index.tsx:133-136 | the hash is `\|skipCache:true` when `skipCache` is true and `\|skipCache:false` otherwise |
| QueryCache.HashOptionsSeparatesSkipCache | reactfire/src/firestore/index.tsx:133-136 | two options share a hash exactly when their effective `skipCache` agrees; undefined, `{}` and `{skipCache: false}` share one |
| QueryCache.BucketGet | reactfire/src/firestore/index.tsx:53-54 | finds a query by identity exactly when the bucket holds it, and yields its binding |
| QueryCache.FirstEqual | reactfire/src/firestore/index.tsx:56-61 | yields nothing exactly when no stored query is equal; otherwise the entry of the first equal query in insertion order |
| QueryCache.BucketSet | reactfire/src/firestore/index.tsx:41 | a new query is appended at the end of the insertion order; a stored one keeps its position with only its entry replaced; every other binding is as it was |
| QueryCache.BucketDelete | reactfire/src/firestore/index.tsx:78 | the bucket without the query's pair, the other pairs in their order; unchanged when the query is absent |
| QueryCache.Get | reactfire/src/firestore/index.tsx:46-62 | nothing without a bucket for the hash; else the identity match; else the first `isEqual` match |
| QueryCache.Insert | reactfire/src/firestore/index.tsx:32-43 | a fresh entry is bound to the query in the options' bucket, which is created if missing, by `bucket.set`, so the other queries in that bucket keep their entries and order; every other bucket is untouched |
| QueryCache.GetOrInsert | reactfire/src/firestore/index.tsx:64-69 | returns the found entry with the cache unchanged, or inserts when nothing is found |
| QueryCache.NoDuplicateForEqualQuery | reactfire/src/firestore/index.tsx:64-69 | a query that is, or is equal to, one stored in its options' bucket never gets a second entry |
| QueryCache.GetAfterInsert | reactfire/src/firestore/index.tsx:32-62 | an inserted entry is found again under the same query and options |
| QueryCache.RemoveAsWritten | reactfire/src/firestore/index.tsx:71-80 | the identity check uses the default-options lookup; when it fails nothing is removed; when it holds the query is unbound in the given options' bucket, the other pairs keep their order, and other buckets are untouched |
| QueryCache.SkipCacheEntryNeverRemovedAsWritten | reactfire/src/firestore/index.tsx:45-80 | an entry inserted with `skipCache: true` is bound, yet its own removal leaves the cache unchanged |
| QueryCache.Remove | reactfire/src/firestore/index.tsx:71-80 | the corrected removal checks identity in the bucket it deletes from; a mismatch removes nothing; a match unbinds the query there, keeps the other pairs in order, and leaves other buckets untouched |
| QueryCache.DeleteFromBucket | reactfire/src/firestore/index.tsx:77-78 | unbinds the query in the options' bucket only, when that bucket exists, keeping its other pairs in order |
| QueryCache.RemoveUndoesInsert | reactfire/src/firestore/index.tsx:32-80 | for every options value, the corrected removal unbinds what `insert` bound and leaves other buckets alone |
| QueryCache.RemovalsAgreeOnDefaults | reactfire/src/firestore/index.tsx:71-80 | for default options the written and corrected removals coincide |
| QueryCache.SkipWhileFromCache | reactfire/src/firestore/index.tsx:19-20 | the output is a suffix of the input; everything dropped was from cache, and the output starts with a server snapshot or is empty |
| QueryCache.Emitted | reactfire/src/firestore/index.tsx:19-23 | without `skipCache` every snapshot passes; with it the leading cached run is dropped |
| QueryCache.SkipCacheExamples | reactfire/src/firestore/index.tsx:102-104 | a server-first stream passes whole, later cached snapshots included; an all-cached one yields nothing |
| QueryCache.DocKey | reactfire/src/firestore/index.tsx:95-105 | the document id splits into the prefix `firestore doc: `, the document path, and the options hash |
| QueryCache.DocKeyInjective | reactfire/src/firestore/index.tsx:95-105 | two document keys are equal exactly when path and effective `skipCache` agree |
| QueryCache.KeysWithDifferentSkipCacheDiffer | reactfire/src/firestore/index.tsx:105 | keys with different `skipCache` differ whatever the paths |
| Auth.IdTokenKey | reactfire/src/auth/index.tsx:25-31 | no user fails with `you must provide a user`; otherwise the key is the uid followed by `-claims` |
| Auth.IdTokenKeyIsNotUserKey | reactfire/src/auth/index.tsx:18-31 | no token key equals the user key `auth: user` |
| Auth.IdTokenKeyInjective | reactfire/auth/index.tsx:38-44 | different uids get different token keys |
| Auth.Lookup | reactfire/src/auth/index.tsx:62 | a claim the token holds reads as its value, and one it lacks reads as undefined |
| Auth.MissingClaims | reactfire/src/auth/index.tsx:59-68 | holds exactly the required keys whose value is not strictly equal to the token's, each recording expected and actual |
| Auth.ClaimsCheck | reactfire/src/auth/index.tsx:52-75 | no user throws; otherwise children exactly when nothing is missing, with absent requirements defaulting to `{}` |
| Auth.DefaultClaims | reactfire/auth/index.tsx:69 | absent required claims are the empty object; given ones are used as they are |
| Auth.ClaimsCheckMeansMatches | reactfire/auth/index.tsx:72-87 | for every requirement, children exactly when each required key reads, through `claims[k]`, as the required value, so a required `undefined` is met by an absent claim |
| Auth.ClaimsCheckMeansSatisfies | reactfire/auth/index.tsx:72-87 | for required values other than undefined, children exactly when the token holds every required claim with the required value |
| Auth.RequiredUndefinedMetByAbsentClaim | reactfire/auth/index.tsx:74-81 | a requirement `{k: undefined}` admits a token that lacks k, although the token does not hold the claim |
| Auth.ExtraClaimsIrrelevant | reactfire/src/auth/index.tsx:61 | tokens that agree on the required keys get the same outcome |
| Auth.ClaimsCheckMonotone | reactfire/auth/index.tsx:74-87 | a token that passes a larger requirement passes every part of it |
| Auth.DefaultRequiresNothing | reactfire/auth/index.tsx:65-87 | with no or empty requirements every signed-in user passes |
| Auth.AuthCheck | reactfire/src/auth/index.tsx:83-99 | no user renders the fallback; a user with requirements renders what `ClaimsCheck` does; a user without renders the children |
| Auth.AuthCheckAdmits | reactfire/auth/index.tsx:96-112 | children exactly for a signed-in user with no missing claim |

## Left out

- React hooks and components: `useObservable`, `preloadObservable`, `useState`/`useEffect`, providers and JSX.
  Only the choice between children and fallback is modelled.
- rxjs operator code (`share`, `finalize`, `tap`, `first`, `skipWhile`, `toPromise`): modelled by their
  effect on a reference count, a read cell and removal requests.
- Firebase SDK and rxfire calls (`onSnapshot`, `user`, `getIdTokenResult`): sources are streams of
  events, and `Query.isEqual` is an abstract predicate.
- Real time: `setTimeout` is an explicit clock with timer events. The 30000 timeout of `QueryCache`
  entries is not modelled, because `src/firestore/index.tsx:33-37` builds `CacheEntry` with a
  constructor signature that `CacheEntry` in `src/useObservable/observableCache.ts` does not have.
- The order in which one emission reaches several subscribers, and what each subscriber sees; only the
  shared read cell is kept.
- Asynchronous scheduling of promise callbacks and `Resource.finally`: only settlements are modelled.
- Resource.ThenSettlement: a handler that returns a thenable yields "not settled yet" instead of
  following that thenable's later outcome.
- A function with a callable `then` passed to `wrappedResolve`: the result is set, since
  `isPromiseLike` rejects functions. `res(value)` then hands the same function to the native promise,
  which adopts it. What the derived promise of `then`/`catch` later sees in that case is not modelled.
- ObservableWorld.Apply: the `Preload` action's factory never throws. A throwing factory is modelled at
  the registry level, by `ObservableRegistry.CreateDedupedOrThrow`, where it leaves the registry as it was.
- Auth.ClaimsCheckMeansSatisfies: stated only for requirements without an `undefined` value. The
  general case is `Auth.ClaimsCheckMeansMatches`, and `Auth.RequiredUndefinedMetByAbsentClaim` shows
  where the two part.
- Resource.ThenSettlement: takes the settlement of the native promise as input. For a resource whose
  executor threw, that is its `promise` field and not its result.
- Claim values are compared with JavaScript's strict equality: primitives by value, objects by
  reference. Numbers are integers, with no NaN and no -0.
- The tests of the current revision call `cache.getOrInsert(key, observable)`, which
  `ObservableCache` in `src/useObservable/observableCache.ts` does not define; the scenarios are replayed on `createDedupedObservable` semantics
  instead.
- `useUser`, `preloadUser` and the other per-product hooks (database, storage, performance): they only
  pass a source and a key to the observable cache.

## Findings

| source | as written | input that shows it | evidently intended | confidence | as-written member | corrected member |
|---|---|---|---|---|---|---|
| reactfire/src/firestore/index.tsx:76 | `remove` checks `this.get(query) === entry` with default options, then deletes from the `hashOptions(options)` bucket | `getOrInsert(q, {skipCache: true})` on an empty cache, then that entry's cleanup `remove(q, {skipCache: true}, entry)`: the default bucket does not hold the entry, so nothing is removed | check identity with the same options used for the deletion, `this.get(query, options)` | high for the logic; not executed | QueryCache.RemoveAsWritten | QueryCache.Remove |

=== FILE: auth.dfy ===
/**
 * `auth/index.tsx` (older revision) and `src/auth/index.tsx` (current
 * revision): the id-token cache key and the claims decision behind
 * `ClaimsCheck` and `AuthCheck`. Both revisions make the same decision, so
 * one model serves both.
 *
 * Rendering is reduced to the choice between `children` and `fallback`;
 * reading the user and the token happen outside, and their values are
 * parameters.
 */
module Auth {
  import opened Base
  import opened Js

  /** A signed-in user, of whom only `uid` matters here. A falsy user
      (`null`, `undefined`) is `None`. */
  datatype User = User(uid: string)

  /** A claims object: own enumerable keys and their values. */
  type Claims = map<string, JsValue>

  /** The observable id `useUser` caches the auth state under. */
  const UserKey: string := "auth: user"

  const ClaimsSuffix: string := "-claims"

  const NoUserMessage: string := "you must provide a user"

  /** `useIdTokenResult`'s guard and cache key. */
  function IdTokenKey(user: Option<User>): (r: Result<string, string>)
    ensures r.Err? <==> user.None?
    ensures r.Err? ==> r.error == NoUserMessage
    ensures r.Ok? ==> |r.value| == |user.value.uid| + |ClaimsSuffix|
                      && r.value[..|user.value.uid|] == user.value.uid
                      && r.value[|user.value.uid|..] == ClaimsSuffix
  {
    match user
    case None => Err(NoUserMessage)
    case Some(u) => Ok(u.uid + ClaimsSuffix)
  }

  /** No token key collides with the user key: they end differently. */
  lemma IdTokenKeyIsNotUserKey(user: Option<User>)
    ensures IdTokenKey(user).Ok? ==> IdTokenKey(user).value != UserKey
  {
  }

  /** Different users get different token keys. */
  lemma IdTokenKeyInjective(u1: User, u2: User)
    ensures IdTokenKey(Some(u1)) == IdTokenKey(Some(u2)) <==> u1.uid == u2.uid
  {
    if IdTokenKey(Some(u1)) == IdTokenKey(Some(u2)) {
      var k := IdTokenKey(Some(u1)).value;
      assert u1.uid == k[..|k| - |ClaimsSuffix|];
    }
  }

  /** `claims[k]`: a key the object lacks reads as `undefined`. */
  function Lookup(claims: Claims, k: string): (v: JsValue)
    ensures k !in claims ==> v == Undefined
    ensures k in claims ==> v == claims[k]
  {
    if k in claims then claims[k] else Undefined
  }

  /** One `missingClaims` record. */
  datatype Missing = Missing(expected: JsValue, actual: JsValue)

  /** The `missingClaims` object: for each required key whose value is not
      strictly equal to the token's, what was expected and what was found.
      Values are compared as JavaScript's `!==` does: primitives by value,
      objects by reference. */
  function MissingClaims(required: Claims, claims: Claims): (m: map<string, Missing>)
    ensures m.Keys <= required.Keys
    ensures forall k :: k in required ==>
              (k in m <==> required[k] != Lookup(claims, k))
    ensures forall k :: k in m ==> m[k].expected == required[k] && m[k].actual == Lookup(claims, k)
  {
    map k | k in required && required[k] != Lookup(claims, k) :: Missing(required[k], Lookup(claims, k))
  }

  /** What a check renders. */
  datatype Render = Children | Fallback

  /** A token satisfies a requirement when it holds every required claim
      with the required value. */
  ghost predicate Satisfies(claims: Claims, required: Claims) {
    forall k :: k in required ==> k in claims && claims[k] == required[k]
  }

  /** `ClaimsCheck`, given the user and the claims its id token carries:
      no user throws, otherwise children exactly when nothing is missing.
      Absent `requiredClaims` default to `{}`. */
  function ClaimsCheck(user: Option<User>, required: Option<Claims>, claims: Claims): (r: Result<Render, string>)
    ensures r.Err? <==> user.None?
    ensures r.Err? ==> r.error == NoUserMessage
    ensures r.Ok? ==> (r.value == Children <==> MissingClaims(DefaultClaims(required), claims) == map[])
  {
    match IdTokenKey(user)
    case Err(msg) => Err(msg)
    case Ok(_) =>
      if |MissingClaims(DefaultClaims(required), claims)| == 0 then Ok(Children) else Ok(Fallback)
  }

  /** `requiredClaims = {}`. */
  function DefaultClaims(required: Option<Claims>): (r: Claims)
    ensures required.None? ==> r == map[]
    ensures required.Some? ==> r == required.value
  {
    if required.Some? then required.value else map[]
  }

  /** A token matches a requirement when every required key reads, through
      `claims[k]`, as the required value; a required `undefined` is then met
      by a claim the token lacks. */
  ghost predicate Matches(claims: Claims, required: Claims) {
    forall k :: k in required ==> Lookup(claims, k) == required[k]
  }

  /** `ClaimsCheck` passes exactly the tokens that match the requirement,
      for every requirement, `undefined` values included. */
  lemma ClaimsCheckMeansMatches(user: User, required: Claims, claims: Claims)
    ensures ClaimsCheck(Some(user), Some(required), claims) == Ok(Children) <==> Matches(claims, required)
  {
    var m := MissingClaims(required, claims);
    if m == map[] {
      forall k | k in required ensures Lookup(claims, k) == required[k] {
        assert k !in m;
      }
    } else {
      var k :| k in m;
      assert Lookup(claims, k) != required[k];
    }
  }

  /** When no required value is `undefined`, matching is satisfying: the
      check passes exactly the tokens that hold every required claim with the
      required value. */
  lemma ClaimsCheckMeansSatisfies(user: User, required: Claims, claims: Claims)
    requires forall k :: k in required ==> required[k] != Undefined
    ensures ClaimsCheck(Some(user), Some(required), claims) == Ok(Children) <==> Satisfies(claims, required)
  {
    ClaimsCheckMeansMatches(user, required, claims);
    if Matches(claims, required) {
      forall k | k in required ensures k in claims && claims[k] == required[k] {
        assert Lookup(claims, k) == required[k];
      }
    }
  }

  /** Without that restriction the two part: a required `undefined` is met
      by a token that lacks the claim, although the token does not hold it. */
  lemma RequiredUndefinedMetByAbsentClaim(user: User, k: string, claims: Claims)
    requires k !in claims
    ensures ClaimsCheck(Some(user), Some(map[k := Undefined]), claims) == Ok(Children)
    ensures !Satisfies(claims, map[k := Undefined])
  {
    ClaimsCheckMeansMatches(user, map[k := Undefined], claims);
  }

  /** Claims the token carries but the check does not require never change
      the outcome: only the required keys are consulted. */
  lemma ExtraClaimsIrrelevant(user: Option<User>, required: Option<Claims>, c1: Claims, c2: Claims)
    requires forall k :: k in DefaultClaims(required) ==> Lookup(c1, k) == Lookup(c2, k)
    ensures ClaimsCheck(user, required, c1) == ClaimsCheck(user, required, c2)
  {
    assert MissingClaims(DefaultClaims(required), c1) == MissingClaims(DefaultClaims(required), c2);
  }

  /** Requiring more never lets more through: a token that passes a larger
      requirement passes every part of it. */
  lemma ClaimsCheckMonotone(user: User, small: Claims, large: Claims, claims: Claims)
    requires forall k :: k in small ==> k in large && large[k] == small[k]
    ensures ClaimsCheck(Some(user), Some(large), claims) == Ok(Children)
            ==> ClaimsCheck(Some(user), Some(small), claims) == Ok(Children)
  {
  }

  /** With no requirement, or an empty one, every signed-in user passes. */
  lemma DefaultRequiresNothing(user: User, claims: Claims)
    ensures ClaimsCheck(Some(user), None, claims) == Ok(Children)
    ensures ClaimsCheck(Some(user), Some(map[]), claims) == Ok(Children)
  {
  }

  /** `AuthCheck`: no user renders the fallback; a user with
      `requiredClaims` renders what `ClaimsCheck` does; a user without
      renders the children. `requiredClaims` is an object when present, so
      an empty one still goes through `ClaimsCheck`. */
  function AuthCheck(user: Option<User>, required: Option<Claims>, claims: Claims): (r: Render)
    ensures user.None? ==> r == Fallback
    ensures user.Some? && required.None? ==> r == Children
    ensures user.Some? && required.Some? ==> Ok(r) == ClaimsCheck(user, required, claims)
  {
    match user
    case None => Fallback
    case Some(_) =>
      if required.Some? then ClaimsCheck(user, required, claims).value else Children
  }

  /** `AuthCheck` renders the children exactly for a signed-in user whose
      token has no missing claim. */
  lemma AuthCheckAdmits(user: Option<User>, required: Option<Claims>, claims: Claims)
    ensures AuthCheck(user, required, claims) == Children
            <==> user.Some? && MissingClaims(DefaultClaims(required), claims) == map[]
  {
  }
}

=== FILE: base.dfy ===
/** Small option and result types shared by every module of the model. */
module Base {

  /** A value that may be absent (JavaScript `undefined`). */
  datatype Option<+T> = None | Some(value: T)

  /** The outcome of an operation that may throw an `Error` with a message. */
  datatype Result<+T, +E> = Ok(value: T) | Err(error: E)
}

=== FILE: cache_entry.dfy ===
/**
 * `CacheEntry` of the current revision (`src/useObservable/observableCache.ts`).
 * Its pipeline is source -> resourcify -> finalize(remove) -> tap(store the
 * resource) -> share -> deferUnsubscribe(1000), and the constructor attaches
 * the first-value waiter. Consequences the model keeps:
 *   - `resourcify` turns a source error into an ordinary emission of a
 *     throwing resource, so an error does not tear the entry down;
 *   - every holder that leaves, downstream subscriber or waiter, keeps its
 *     hold until its deferred unsubscribe fires;
 *   - `finalize` runs once per teardown: on completion of the source, or
 *     when the last hold is released.
 */
module CacheEntry {
  import opened ReadCell
  import opened EntryState

  /** What `resourcify()` forwards downstream for one source event. `Raise`
      is what an rxjs subscriber would receive for an error. */
  datatype Notification<+T, +E> = Next(resource: Cell<T, E>) | Raise(error: E) | Complete

  /** `resourcify()`: each value or error becomes a resource whose `read()`
      returns the value or throws the error; completion passes through. */
  function Resourcify<T, E>(ev: SourceEvent<T, E>): (n: Notification<T, E>)
    ensures !n.Raise?
    ensures n.Complete? <==> ev.Done?
    ensures ev.Value? ==> n.Next? && Read(n.resource) == Returns(ev.value)
    ensures ev.Error? ==> n.Next? && Read(n.resource) == Throws(ev.error)
  {
    match ev
    case Value(v) => Next(Ready(v))
    case Error(err) => Next(Failed(err))
    case Done => Complete
  }

  /** `tap(resource => this.resource = resource)` followed by delivery through
      `share()`: the waiter, if still attached, takes this first emission and
      leaves, deferring its unsubscribe. */
  function Emitted<T, E>(e: Entry<T, E>, cell: Cell<T, E>, closes: bool, now: nat): Entry<T, E> {
    if e.waiting then
      e.(resource := cell, sourceClosed := closes, waiting := false, timers := e.timers + [now + e.grace])
    else
      e.(resource := cell, sourceClosed := closes)
  }

  /** One event at clock `now`. */
  function Step<T, E>(e: Entry<T, E>, ev: Event<T, E>, now: nat): (s: Transition<T, E>)
    requires Valid(e, now)
    ensures Valid(s.entry, now)
    ensures s.cleanups <= 1
    ensures s.cleanups == 1 <==> e.connected && !s.entry.connected
    ensures !e.connected && !ev.Subscribe? ==> s == Transition(e, 0)
    ensures s.entry.sourceSubscriptions
         == e.sourceSubscriptions + (if ev.Subscribe? && !e.connected then 1 else 0)
    ensures s.entry.grace == e.grace
    ensures !(ev.Source? && !ev.source.Done?) ==> s.entry.resource == e.resource
  {
    match ev
    case Source(src) =>
      if !e.connected || e.sourceClosed then Transition(e, 0)
      else (
        match src
        case Value(v) =>
          PushKeepsTimers(e.timers, now, e.grace);
          Transition(Emitted(e, Ready(v), false, now), 0)
        case Error(err) =>
          PushKeepsTimers(e.timers, now, e.grace);
          Transition(Emitted(e, Failed(err), true, now), 0)
        case Done =>
          Transition(Disconnected(e).(sourceClosed := true), 1))
    case Subscribe =>
      Transition(Attach(e), 0)
    case Unsubscribe =>
      if e.subscribers == 0 then Transition(e, 0)
      else
        PushKeepsTimers(e.timers, now, e.grace);
        Transition(e.(subscribers := e.subscribers - 1, timers := e.timers + [now + e.grace]), 0)
    case TimerFires =>
      if |e.timers| == 0 || e.timers[0] > now then Transition(e, 0)
      else
        var rest := e.(timers := e.timers[1..]);
        if RefCount(rest) == 0 then Transition(Disconnected(rest), 1) else Transition(rest, 0)
  }

  /** The events that keep reading the latest emission: each value or error
      the open source pushes replaces what `read()` does. */
  lemma ReadFollowsSource<T, E>(e: Entry<T, E>, src: SourceEvent<T, E>, now: nat)
    requires Valid(e, now) && e.connected && !e.sourceClosed && !src.Done?
    ensures var s := Step(e, Source(src), now);
            && s.cleanups == 0
            && s.entry.connected
            && s.entry.resource == Resourcify(src).resource
            && (src.Value? ==> Read(s.entry.resource) == Returns(src.value))
            && (src.Error? ==> Read(s.entry.resource) == Throws(src.error))
  {
  }

  /** Emissions in sequence; the stream of a source that only pushes values. */
  function PushValues<T, E>(e: Entry<T, E>, vs: seq<T>, now: nat): (r: Entry<T, E>)
    requires Valid(e, now)
    ensures Valid(r, now) && r.connected == e.connected && r.sourceClosed == e.sourceClosed
    decreases |vs|
  {
    if |vs| == 0 then e else PushValues(Step(e, Source(Value(vs[0])), now).entry, vs[1..], now)
  }

  /** Latest wins: after any run of values, `read()` returns the last one. */
  lemma {:induction false} ReadsLatestValue<T, E>(e: Entry<T, E>, vs: seq<T>, now: nat)
    requires Valid(e, now) && e.connected && !e.sourceClosed && |vs| > 0
    ensures Read(PushValues(e, vs, now).resource) == Returns(vs[|vs| - 1])
    decreases |vs|
  {
    var e1 := Step(e, Source(Value(vs[0])), now).entry;
    ReadFollowsSource(e, Value(vs[0]), now);
    if |vs| > 1 {
      ReadsLatestValue(e1, vs[1..], now);
      assert vs[1..][|vs[1..]| - 1] == vs[|vs| - 1];
    }
  }

  /** Before any emission the entry suspends readers, and after an error it
      throws that error yet stays connected, so it remains registered. */
  lemma SuspendsThenThrows<T, E>(err: E)
    ensures var e := Create<T, E>(DeferredUnsubscribeDelay);
            && Read(e.resource).Suspends?
            && var s := Step(e, Source(Error(err)), 0);
               Read(s.entry.resource) == Throws(err) && s.cleanups == 0 && s.entry.connected
  {
  }

  /** Unsubscribing never tears the entry down at once: the hold is kept
      until a timer `grace` units later. */
  lemma UnsubscribeIsDeferred<T, E>(e: Entry<T, E>, now: nat)
    requires Valid(e, now) && e.subscribers > 0
    ensures var s := Step(e, Unsubscribe, now);
            && s.cleanups == 0
            && s.entry.connected
            && s.entry.timers == e.timers + [now + e.grace]
  {
  }

  /** While a subscriber or the waiter holds the entry, only completion of
      the source can tear it down. */
  lemma HeldEntryStays<T, E>(e: Entry<T, E>, ev: Event<T, E>, now: nat)
    requires Valid(e, now) && (e.subscribers > 0 || e.waiting)
    requires ev != Source(Done)
    ensures Step(e, ev, now).cleanups == 0
  {
  }

  /** Completion of the source closes an open entry at once, whoever still
      holds it, with one removal request, and keeps the read cell. */
  lemma SourceEndTearsDown<T, E>(e: Entry<T, E>, now: nat)
    requires Valid(e, now) && e.connected && !e.sourceClosed
    ensures Step(e, Source(Done), now).cleanups == 1
    ensures !Step(e, Source(Done), now).entry.connected
    ensures Step(e, Source(Done), now).entry.sourceClosed
    ensures Step(e, Source(Done), now).entry.resource == e.resource
  {
  }

  /** A timer tears the entry down exactly when nobody is attached, the
      firing timer is the last pending one, and the clock has reached its
      deadline: `grace` units after the last holder left. */
  lemma TimerTeardownIsLast<T, E>(e: Entry<T, E>, now: nat)
    requires Valid(e, now)
    ensures Step(e, TimerFires, now).cleanups == 1
        <==> e.subscribers == 0 && !e.waiting && |e.timers| == 1 && e.timers[0] <= now
    ensures Step(e, TimerFires, now).cleanups == 1 ==> !Step(e, TimerFires, now).entry.connected
  {
  }

  /** Attaching during the grace period reuses the open subscription: no new
      subscription to the source and no change to the cell. */
  lemma ReattachKeepsSubscription<T, E>(e: Entry<T, E>, now: nat)
    requires Valid(e, now) && e.connected
    ensures var r := Step(e, Subscribe, now).entry;
            && r.connected
            && r.sourceSubscriptions == e.sourceSubscriptions
            && r.resource == e.resource
  {
  }

  /** `n` subscribers attached to an open entry. */
  function SubscribeMany<T, E>(e: Entry<T, E>, n: nat, now: nat): (r: Entry<T, E>)
    requires Valid(e, now)
    ensures Valid(r, now)
    decreases n
  {
    if n == 0 then e else SubscribeMany(Step(e, Subscribe, now).entry, n - 1, now)
  }

  /** Fan-out: however many downstream subscribers attach to an open entry,
      the source is still subscribed only the one time. */
  lemma {:induction false} OneSourceSubscription<T, E>(e: Entry<T, E>, n: nat, now: nat)
    requires Valid(e, now) && e.connected
    ensures SubscribeMany(e, n, now).connected
    ensures SubscribeMany(e, n, now).sourceSubscriptions == e.sourceSubscriptions
    ensures SubscribeMany(e, n, now).subscribers == e.subscribers + n
    decreases n
  {
    if n > 0 {
      OneSourceSubscription(Step(e, Subscribe, now).entry, n - 1, now);
    }
  }
}

=== FILE: entry_state.dfy ===
/**
 * The state of one `CacheEntry`, as both revisions of
 * `useObservable/observableCache.ts` build it: one shared (`share()`)
 * subscription to the wrapped source, the read cell, and everything that
 * holds the shared subscription open.
 *
 * The rxjs pipeline is modelled by its effect. The shared subscription is
 * reference counted: it is open exactly while someone holds it, and when the
 * count drops to zero it unsubscribes from the source, which runs the
 * entry's cleanup. The holders are
 *   - the internal first-value waiter (`first().toPromise()`), attached from
 *     construction until the first emission;
 *   - downstream subscribers of `entry.observable`;
 *   - deferred unsubscribes (`deferUnsubscribe`): a holder that left keeps
 *     its hold until a timer set `grace` time units later fires.
 */
module EntryState {
  import opened ReadCell

  /** What the wrapped source pushes: a value, an error, or completion. */
  datatype SourceEvent<+T, +E> = Value(value: T) | Error(error: E) | Done

  /** Everything that can happen to an entry. `TimerFires` stands for the
      event loop running the oldest deferred unsubscribe once it is due. */
  datatype Event<+T, +E> = Source(source: SourceEvent<T, E>) | Subscribe | Unsubscribe | TimerFires

  datatype Entry<+T, +E> = Entry(
    resource: Cell<T, E>,      // what `read()` does now
    waiting: bool,             // the first-value waiter still holds the subscription
    subscribers: nat,          // attached downstream subscribers
    timers: seq<nat>,          // deadlines of pending deferred unsubscribes, oldest first
    grace: nat,                // the delay `deferUnsubscribe` waits
    connected: bool,           // the shared subscription to the source is open
    sourceClosed: bool,        // the source has errored or completed on this connection
    sourceSubscriptions: nat)  // how many times the source has been subscribed

  /** One transition: the new state and how many times it called
      `cache.removeObservable(id, this)`. */
  datatype Transition<+T, +E> = Transition(entry: Entry<T, E>, cleanups: nat)

  /** The delay both revisions pass to `deferUnsubscribe`. */
  const DeferredUnsubscribeDelay: nat := 1000

  /** How many holders keep the shared subscription open. */
  function RefCount<T, E>(e: Entry<T, E>): nat {
    (if e.waiting then 1 else 0) + e.subscribers + |e.timers|
  }

  ghost predicate Sorted(s: seq<nat>) {
    forall i, j :: 0 <= i < j < |s| ==> s[i] <= s[j]
  }

  /** No deadline in `s` lies after `bound`. */
  ghost predicate DueBy(s: seq<nat>, bound: nat) {
    forall i :: 0 <= i < |s| ==> s[i] <= bound
  }

  /** The invariant every reachable entry keeps at clock `now`. */
  ghost predicate Valid<T, E>(e: Entry<T, E>, now: nat) {
    && (e.connected <==> RefCount(e) > 0)
    && (e.waiting ==> e.resource.Pending?)
    && e.sourceSubscriptions >= 1
    && Sorted(e.timers)
    && DueBy(e.timers, now + e.grace)
  }

  /** A fresh entry: the constructor subscribes the first-value waiter, which
      opens the shared subscription and so subscribes the source once. */
  function Create<T, E>(grace: nat): (e: Entry<T, E>)
    ensures forall now: nat :: Valid(e, now)
    ensures Read(e.resource).Suspends?
    ensures e.connected && e.sourceSubscriptions == 1 && RefCount(e) == 1
    ensures e.waiting && e.subscribers == 0 && e.timers == [] && !e.sourceClosed && e.grace == grace
  {
    Entry(Pending, true, 0, [], grace, true, false, 1)
  }

  /** A new downstream subscriber. When the shared subscription is open it
      joins it; when it is closed, `share()` opens a new one, which
      subscribes the source again. */
  function Attach<T, E>(e: Entry<T, E>): (r: Entry<T, E>)
    ensures r.subscribers == e.subscribers + 1 && r.connected
    ensures e.connected ==> r == e.(subscribers := e.subscribers + 1)
    ensures !e.connected ==> r.sourceSubscriptions == e.sourceSubscriptions + 1 && !r.sourceClosed
    ensures r.resource == e.resource && r.timers == e.timers && r.waiting == e.waiting && r.grace == e.grace
  {
    if e.connected then
      e.(subscribers := e.subscribers + 1)
    else
      e.(subscribers := e.subscribers + 1, connected := true, sourceClosed := false,
         sourceSubscriptions := e.sourceSubscriptions + 1)
  }

  /** The state after the shared subscription has been torn down: no holder
      is left and no timer can affect it any more. */
  function Disconnected<T, E>(e: Entry<T, E>): (r: Entry<T, E>)
    ensures !r.connected && RefCount(r) == 0
    ensures r.resource == e.resource && r.sourceSubscriptions == e.sourceSubscriptions
  {
    e.(waiting := false, subscribers := 0, timers := [], connected := false)
  }

  /** Pushing a deadline `now + grace` keeps the timer queue sorted and
      bounded by the clock. */
  lemma PushKeepsTimers(timers: seq<nat>, now: nat, grace: nat)
    requires Sorted(timers)
    requires DueBy(timers, now + grace)
    ensures Sorted(timers + [now + grace])
    ensures DueBy(timers + [now + grace], now + grace)
  {
  }

  /** A later clock keeps an entry valid: deadlines only need to lie no more
      than `grace` after the present. */
  lemma ValidLater<T, E>(e: Entry<T, E>, now: nat, later: nat)
    requires Valid(e, now) && now <= later
    ensures Valid(e, later)
  {
  }
}

=== FILE: js.dfy ===
/**
 * The slice of JavaScript values the model needs: truthiness (for `if (x)`
 * guards), `typeof`, and normal versus abrupt completion of a call.
 * Numbers are integers: no NaN, no -0, no fractions.
 */
module Js {

  /** A JavaScript value. Objects and functions are known by reference; the
      flag records whether the object's `then` property is a function. */
  datatype JsValue =
    | Undefined
    | Null
    | Bool(b: bool)
    | Num(n: int)
    | Str(s: string)
    | Obj(ref: nat, thenIsFunction: bool)
    | Fun(ref: nat, thenIsFunction: bool)

  /** JavaScript truthiness: `undefined`, `null`, `false`, `0` and `""` are falsy. */
  predicate Truthy(v: JsValue) {
    match v
    case Undefined => false
    case Null => false
    case Bool(b) => b
    case Num(n) => n != 0
    case Str(s) => s != ""
    case Obj(_, _) => true
    case Fun(_, _) => true
  }

  /** The string JavaScript's `typeof` yields; `typeof null` is "object". */
  function TypeOf(v: JsValue): string {
    match v
    case Undefined => "undefined"
    case Null => "object"
    case Bool(_) => "boolean"
    case Num(_) => "number"
    case Str(_) => "string"
    case Obj(_, _) => "object"
    case Fun(_, _) => "function"
  }

  /** Whether `typeof v.then === 'function'`; primitives have no `then`. */
  predicate HasCallableThen(v: JsValue) {
    (v.Obj? || v.Fun?) && v.thenIsFunction
  }

  /** How a call ended: it returned a value, or it threw one. */
  datatype Completion<+T> = Normal(value: T) | Abrupt(thrown: JsValue)
}

=== FILE: legacy_cache_entry.dfy ===
/**
 * `CacheEntry` of the older revision (`useObservable/observableCache.ts`).
 * Its pipeline is source -> withCleanup(cleanup) -> tap(set read) -> share,
 * and only the first-value waiter goes through `deferUnsubscribe(1000)`.
 * Consequences the model keeps:
 *   - downstream subscribers hold the shared subscription directly, so the
 *     last of them leaving tears it down at once when the waiter's timer
 *     has already fired;
 *   - a source error or completion ends the whole chain at once;
 *   - `withCleanup` runs `cleanup` both from `finalize` and from its own
 *     teardown, so every teardown asks for removal twice.
 */
module LegacyCacheEntry {
  import opened ReadCell
  import opened EntryState

  /** Removal requests per teardown: `finalize(cleanup)` plus the teardown's
      own `cleanup()`. */
  const CleanupsPerTeardown: nat := 2

  /** One event at clock `now`. */
  function Step<T, E>(e: Entry<T, E>, ev: Event<T, E>, now: nat): (s: Transition<T, E>)
    requires Valid(e, now)
    ensures Valid(s.entry, now)
    ensures s.cleanups == 0 || s.cleanups == CleanupsPerTeardown
    ensures s.cleanups == CleanupsPerTeardown <==> e.connected && !s.entry.connected
    ensures !e.connected && !ev.Subscribe? ==> s == Transition(e, 0)
    ensures s.entry.sourceSubscriptions
         == e.sourceSubscriptions + (if ev.Subscribe? && !e.connected then 1 else 0)
    ensures s.entry.grace == e.grace
    ensures !(ev.Source? && !ev.source.Done?) ==> s.entry.resource == e.resource
  {
    match ev
    case Source(src) =>
      if !e.connected || e.sourceClosed then Transition(e, 0)
      else (
        match src
        case Value(v) =>
          if e.waiting then
            PushKeepsTimers(e.timers, now, e.grace);
            Transition(e.(resource := Ready(v), waiting := false, timers := e.timers + [now + e.grace]), 0)
          else
            Transition(e.(resource := Ready(v)), 0)
        case Error(err) =>
          Transition(Disconnected(e).(resource := Failed(err), sourceClosed := true), CleanupsPerTeardown)
        case Done =>
          Transition(Disconnected(e).(sourceClosed := true), CleanupsPerTeardown))
    case Subscribe =>
      Transition(Attach(e), 0)
    case Unsubscribe =>
      if e.subscribers == 0 then Transition(e, 0)
      else
        var rest := e.(subscribers := e.subscribers - 1);
        if RefCount(rest) == 0 then Transition(Disconnected(rest), CleanupsPerTeardown) else Transition(rest, 0)
    case TimerFires =>
      if |e.timers| == 0 || e.timers[0] > now then Transition(e, 0)
      else
        var rest := e.(timers := e.timers[1..]);
        if RefCount(rest) == 0 then Transition(Disconnected(rest), CleanupsPerTeardown) else Transition(rest, 0)
  }

  /** `read` throws the promise before the first value, returns each value
      as it arrives, and throws the error once the source fails. */
  lemma ReadFollowsSource<T, E>(e: Entry<T, E>, src: SourceEvent<T, E>, now: nat)
    requires Valid(e, now) && e.connected && !e.sourceClosed
    ensures var r := Step(e, Source(src), now).entry;
            && (src.Value? ==> Read(r.resource) == Returns(src.value))
            && (src.Error? ==> Read(r.resource) == Throws(src.error))
            && (src.Done? ==> r.resource == e.resource)
  {
  }

  /** A failing or completing source tears the entry down at once, asking
      for removal twice; reading keeps reporting the last state. */
  lemma SourceEndTearsDown<T, E>(e: Entry<T, E>, src: SourceEvent<T, E>, now: nat)
    requires Valid(e, now) && e.connected && !e.sourceClosed && !src.Value?
    ensures var s := Step(e, Source(src), now);
            s.cleanups == CleanupsPerTeardown && !s.entry.connected
  {
  }

  /** Only the waiter's unsubscribe is deferred: when the waiter's timer has
      fired, the last downstream subscriber leaving tears the entry down
      immediately, with no grace period. */
  lemma LastSubscriberLeavesAtOnce<T, E>(e: Entry<T, E>, now: nat)
    requires Valid(e, now) && e.subscribers == 1 && !e.waiting && e.timers == []
    ensures var s := Step(e, Unsubscribe, now);
            s.cleanups == CleanupsPerTeardown && !s.entry.connected
  {
  }

  /** While the waiter's deferred unsubscribe is pending, a downstream
      subscriber leaving does not tear the entry down. */
  lemma PendingWaiterTimerHolds<T, E>(e: Entry<T, E>, now: nat)
    requires Valid(e, now) && e.subscribers > 0 && |e.timers| > 0
    ensures Step(e, Unsubscribe, now).cleanups == 0
    ensures Step(e, Unsubscribe, now).entry.connected
  {
  }

  /** The waiter's deferred unsubscribe tears the entry down exactly when
      no downstream subscriber is attached, it is the last pending timer,
      and its deadline has been reached. */
  lemma TimerTeardownIsLast<T, E>(e: Entry<T, E>, now: nat)
    requires Valid(e, now)
    ensures Step(e, TimerFires, now).cleanups == CleanupsPerTeardown
        <==> e.subscribers == 0 && !e.waiting && |e.timers| == 1 && e.timers[0] <= now
    ensures Step(e, TimerFires, now).cleanups == CleanupsPerTeardown ==> !Step(e, TimerFires, now).entry.connected
  {
  }

  /** `n` downstream subscribers attached. */
  function SubscribeMany<T, E>(e: Entry<T, E>, n: nat, now: nat): (r: Entry<T, E>)
    requires Valid(e, now)
    ensures Valid(r, now)
    decreases n
  {
    if n == 0 then e else SubscribeMany(Step(e, Subscribe, now).entry, n - 1, now)
  }

  /** Several downstream subscribers share the one subscription to the
      source. */
  lemma {:induction false} OneSourceSubscription<T, E>(e: Entry<T, E>, n: nat, now: nat)
    requires Valid(e, now) && e.connected
    ensures SubscribeMany(e, n, now).connected
    ensures SubscribeMany(e, n, now).sourceSubscriptions == e.sourceSubscriptions
    decreases n
  {
    if n > 0 {
      OneSourceSubscription(Step(e, Subscribe, now).entry, n - 1, now);
    }
  }
}

=== FILE: observable_registry.dfy ===
/**
 * The `ObservableCache` registry of both revisions of
 * `useObservable/observableCache.ts` (the two copies are identical): a map
 * from an observable id to at most one cache entry. Entries are objects, so
 * the registry holds references; `nextRef` stands for the allocator that
 * makes every `new CacheEntry(...)` a fresh object.
 */
module ObservableRegistry {
  import opened Base
  import opened Js

  /** The identity of a `CacheEntry` object. */
  type EntryRef = nat

  datatype ObservableCache = ObservableCache(active: map<string, EntryRef>, nextRef: EntryRef)

  /** Every stored reference was allocated before `nextRef`. */
  ghost predicate Valid(c: ObservableCache) {
    forall id :: id in c.active ==> c.active[id] < c.nextRef
  }

  function Empty(): (c: ObservableCache)
    ensures Valid(c) && c.active == map[]
  {
    ObservableCache(map[], 0)
  }

  function MissingMessage(id: string): string {
    "No observable with ID \"" + id + "\" exists"
  }

  /** `getObservable`: the entry stored under `id`, or the error it throws. */
  function GetObservable(c: ObservableCache, id: string): (r: Result<EntryRef, string>)
    ensures r.Ok? <==> id in c.active
    ensures r.Ok? ==> r.value == c.active[id]
    ensures r.Err? ==> r.error == MissingMessage(id)
  {
    if id in c.active then Ok(c.active[id]) else Err(MissingMessage(id))
  }

  /** What `createDedupedObservable` leaves behind: the registry, the entry it
      returns, and whether it called the `getObservable` factory. */
  datatype Created = Created(cache: ObservableCache, entry: EntryRef, factoryCalled: bool)

  /** `createDedupedObservable`: reuse the entry stored under `id`, or call the
      factory once, wrap its observable in a fresh entry and store it. */
  function CreateDeduped(c: ObservableCache, id: string): (r: Created)
    requires Valid(c)
    ensures Valid(r.cache)
    ensures r.factoryCalled <==> id !in c.active
    ensures id in r.cache.active && r.cache.active[id] == r.entry
    ensures !r.factoryCalled ==> r.cache == c
    ensures r.factoryCalled ==> r.entry !in c.active.Values && r.cache.active == c.active[id := r.entry]
    ensures |r.cache.active| == |c.active| + (if r.factoryCalled then 1 else 0)
  {
    if id in c.active then
      Created(c, c.active[id], false)
    else
      Created(ObservableCache(c.active[id := c.nextRef], c.nextRef + 1), c.nextRef, true)
  }

  /** `createDedupedObservable` when the factory call ends with `factory`:
      a throw propagates out of the call before any entry is made or
      stored, so the registry is left as it was; a stored id never calls
      the factory at all. */
  function CreateDedupedOrThrow(c: ObservableCache, id: string, factory: Completion<()>): (r: Result<Created, JsValue>)
    requires Valid(c)
    ensures r.Err? <==> id !in c.active && factory.Abrupt?
    ensures r.Err? ==> r.error == factory.thrown
    ensures r.Ok? ==> r.value == CreateDeduped(c, id)
  {
    if id !in c.active && factory.Abrupt? then Err(factory.thrown) else Ok(CreateDeduped(c, id))
  }

  /** A throwing factory leaves nothing behind: the next call for the same
      id calls the factory again and stores the entry it makes. */
  lemma ThrowingFactoryLeavesNoEntry(c: ObservableCache, id: string, thrown: JsValue)
    requires Valid(c) && id !in c.active
    ensures CreateDedupedOrThrow(c, id, Abrupt(thrown)) == Err(thrown)
    ensures var r := CreateDedupedOrThrow(c, id, Normal(()));
            r.Ok? && r.value.factoryCalled && id in r.value.cache.active
  {
  }

  /** `removeObservable`: delete `id` only when it still maps to `instance`. */
  function RemoveObservable(c: ObservableCache, id: string, instance: EntryRef): (r: ObservableCache)
    ensures r.nextRef == c.nextRef
    ensures id in c.active && c.active[id] == instance ==> r.active == c.active - {id}
    ensures !(id in c.active && c.active[id] == instance) ==> r == c
  {
    if id in c.active && c.active[id] == instance then
      ObservableCache(c.active - {id}, c.nextRef)
    else
      c
  }

  /** The entry just returned by `createDedupedObservable` is what
      `getObservable` finds under the same id. */
  lemma GetAfterCreate(c: ObservableCache, id: string)
    requires Valid(c)
    ensures GetObservable(CreateDeduped(c, id).cache, id) == Ok(CreateDeduped(c, id).entry)
  {
  }

  /** A second removal request by the same entry changes nothing: the
      identity guard makes cleanup idempotent. */
  lemma RemoveIdempotent(c: ObservableCache, id: string, instance: EntryRef)
    ensures RemoveObservable(RemoveObservable(c, id, instance), id, instance)
         == RemoveObservable(c, id, instance)
  {
  }

  /** A stale entry cannot evict a fresh one: once `id` has been re-created
      for a new entry, the old entry's removal request leaves it in place. */
  lemma StaleRemovalKeepsFreshEntry(c: ObservableCache, id: string, stale: EntryRef)
    requires Valid(c)
    requires id !in c.active
    ensures var r := CreateDeduped(c, id);
            stale != r.entry ==> RemoveObservable(r.cache, id, stale) == r.cache
  {
  }

  /** Removal touches only `id`: every other binding survives. */
  lemma RemoveKeepsOtherIds(c: ObservableCache, id: string, instance: EntryRef, other: string)
    requires other != id && other in c.active
    ensures other in RemoveObservable(c, id, instance).active
    ensures RemoveObservable(c, id, instance).active[other] == c.active[other]
  {
  }
}

=== FILE: observable_scenarios.dfy ===
/**
 * Scenarios of both revisions' `observableCache.test.ts`, replayed on a
 * single entry. `jest.runAllTimers()` is the clock passing the grace period
 * and the due timer firing; the registry shrinks exactly when a step asks
 * for cleanup (`ObservableWorld`).
 */
module ObservableScenarios {
  import opened ReadCell
  import opened EntryState
  import CacheEntry
  import LegacyCacheEntry

  const G: nat := DeferredUnsubscribeDelay

  /** Current revision, `stays around until one second after first value`:
      no timer is pending before the first value; the waiter's deferred
      unsubscribe then removes the entry. */
  lemma StaysUntilAfterFirstValue()
    ensures
      var e0 := Create<int, string>(G);
      var s1 := CacheEntry.Step(e0, TimerFires, G);
      var s2 := CacheEntry.Step(s1.entry, Source(Value(99)), G);
      var s3 := CacheEntry.Step(s2.entry, TimerFires, 2 * G);
      s1.cleanups == 0 && s2.cleanups == 0 && s3.cleanups == 1
  {
  }

  /** Current revision, `stays as long as someone is subscribed`: the
      waiter's timer firing does not remove an entry with a subscriber; the
      subscriber leaving does not remove it either, until its own deferred
      unsubscribe fires. */
  lemma StaysWhileSubscribed()
    ensures
      var e0 := Create<int, string>(G);
      var s1 := CacheEntry.Step(e0, TimerFires, G);
      var s2 := CacheEntry.Step(s1.entry, Source(Value(99)), G);
      var s3 := CacheEntry.Step(s2.entry, Subscribe, G);
      var s4 := CacheEntry.Step(s3.entry, TimerFires, 2 * G);
      var s5 := CacheEntry.Step(s4.entry, Unsubscribe, 2 * G);
      var s6 := CacheEntry.Step(s5.entry, TimerFires, 3 * G);
      && s1.cleanups == 0 && s2.cleanups == 0 && s3.cleanups == 0
      && s4.cleanups == 0 && s5.cleanups == 0 && s6.cleanups == 1
  {
  }

  /** Current revision, `throws error, waits, and removes itself`: reading
      returns the value, then throws the error; the entry stays until the
      pending timer fires. */
  lemma ErrorWaitsThenRemoves()
    ensures
      var e0 := Create<string, string>(G);
      var s1 := CacheEntry.Step(e0, Source(Value("value")), 0);
      var s2 := CacheEntry.Step(s1.entry, Source(Error("error")), 0);
      var s3 := CacheEntry.Step(s2.entry, TimerFires, G);
      && Read(s1.entry.resource) == Returns("value")
      && Read(s2.entry.resource) == Throws("error") && s2.cleanups == 0
      && s3.cleanups == 1
  {
  }

  /** Current revision, `only subscribes once to the source`. */
  lemma SubscribesSourceOnce()
    ensures
      var e0 := Create<string, string>(G);
      var s1 := CacheEntry.Step(e0, Source(Value("value")), 0);
      var s2 := CacheEntry.Step(s1.entry, Subscribe, 0);
      var s3 := CacheEntry.Step(s2.entry, Subscribe, 0);
      s3.entry.sourceSubscriptions == 1
  {
  }

  /** Older revision, `removes itself after resolving`. */
  lemma LegacyRemovesAfterResolving()
    ensures
      var e0 := Create<int, string>(G);
      var s1 := LegacyCacheEntry.Step(e0, Source(Value(0)), 0);
      var s2 := LegacyCacheEntry.Step(s1.entry, TimerFires, G);
      s1.cleanups == 0 && s2.cleanups > 0
  {
  }

  /** Older revision, `stays as long as someone is subscribed`: after the
      waiter's timer has fired, the subscriber leaving removes the entry
      straight away. */
  lemma LegacyStaysWhileSubscribed()
    ensures
      var e0 := Create<int, string>(G);
      var s1 := LegacyCacheEntry.Step(e0, Source(Value(42)), 0);
      var s2 := LegacyCacheEntry.Step(s1.entry, Subscribe, 0);
      var s3 := LegacyCacheEntry.Step(s2.entry, TimerFires, G);
      var s4 := LegacyCacheEntry.Step(s3.entry, Unsubscribe, G);
      && Read(s1.entry.resource) == Returns(42)
      && s2.cleanups == 0 && s3.cleanups == 0 && s4.cleanups > 0
  {
  }

  /** Older revision, a source error: reading throws it, and the entry asks
      for removal at the error itself (see README on the test at
      `useObservable/observableCache.test.ts`, which expects it to stay). */
  lemma LegacyErrorRemovesAtOnce()
    ensures
      var e0 := Create<string, string>(G);
      var s1 := LegacyCacheEntry.Step(e0, Source(Value("value")), 0);
      var s2 := LegacyCacheEntry.Step(s1.entry, Source(Error("error")), 0);
      && Read(s1.entry.resource) == Returns("value")
      && Read(s2.entry.resource) == Throws("error")
      && s2.cleanups == LegacyCacheEntry.CleanupsPerTeardown
  {
  }
}

=== FILE: observable_world.dfy ===
/**
 * The registry together with every entry it has ever created, under a
 * global clock: what `preloadObservable` / `useObservable` drive through
 * `createDedupedObservable`, and what each entry's cleanup does to the
 * registry. Entries are objects that outlive their registration (a
 * component may still hold one), so they live in `entries`, a heap keyed by
 * reference, while the registry maps ids to references. Both revisions share
 * this composition; they differ only in how an entry steps.
 *
 * `createDedupedObservable` constructs the entry before it stores it, and
 * the constructor already subscribes the source. A source that emits,
 * fails or completes synchronously does so during construction, so the
 * removal requests of a teardown at that point find the id not yet
 * registered and do nothing; the entry is stored anyway, already closed.
 * The world records such entries in `bornClosed`.
 */
module ObservableWorld {
  import opened ReadCell
  import opened EntryState
  import R = ObservableRegistry
  import CacheEntry
  import LegacyCacheEntry

  datatype Revision = Current | Legacy

  datatype World<T, E> = World(
    revision: Revision,
    cache: R.ObservableCache,
    keys: map<R.EntryRef, string>,
    entries: map<R.EntryRef, Entry<T, E>>,
    bornClosed: set<R.EntryRef>,
    now: nat)

  /** `Preload` is `createDedupedObservable(() => source, key)`, where
      `sync` is what the source pushes synchronously when subscribed;
      `Deliver` is one event at one entry; `Elapse` lets the clock run. */
  datatype Action<T, E> =
    | Preload(key: string, sync: seq<SourceEvent<T, E>>)
    | Deliver(ref: R.EntryRef, event: Event<T, E>)
    | Elapse(dt: nat)

  function Init<T, E>(revision: Revision): World<T, E> {
    World(revision, R.Empty(), map[], map[], {}, 0)
  }

  /** Every entry in the heap was allocated by the registry and is valid. */
  ghost predicate HeapValid<T, E>(w: World<T, E>) {
    && w.keys.Keys == w.entries.Keys
    && (forall ref :: ref in w.entries ==>
          && ref < w.cache.nextRef
          && Valid(w.entries[ref], w.now)
          && w.entries[ref].grace == DeferredUnsubscribeDelay)
  }

  /** A registered entry was created for its key and, unless its source
      ended during construction, has its source subscription open and has
      subscribed the source exactly once. */
  ghost predicate RegisteredOnce<T, E>(w: World<T, E>, key: string)
    requires key in w.cache.active
  {
    var ref := w.cache.active[key];
    && ref in w.entries
    && ref in w.keys
    && w.keys[ref] == key
    && (ref !in w.bornClosed ==> w.entries[ref].connected && w.entries[ref].sourceSubscriptions == 1)
  }

  /** The invariant of every reachable world. */
  ghost predicate Inv<T, E>(w: World<T, E>) {
    && R.Valid(w.cache)
    && HeapValid(w)
    && (forall key :: key in w.cache.active ==> RegisteredOnce(w, key))
  }

  /** One entry step in the given revision. */
  function StepEntry<T, E>(revision: Revision, e: Entry<T, E>, ev: Event<T, E>, now: nat): (s: Transition<T, E>)
    requires Valid(e, now)
    ensures Valid(s.entry, now) && s.entry.grace == e.grace
    ensures s.cleanups > 0 <==> e.connected && !s.entry.connected
    ensures s.entry.sourceSubscriptions
         == e.sourceSubscriptions + (if ev.Subscribe? && !e.connected then 1 else 0)
    ensures !e.connected && !ev.Subscribe? ==> s == Transition(e, 0)
  {
    match revision
    case Current => CacheEntry.Step(e, ev, now)
    case Legacy => LegacyCacheEntry.Step(e, ev, now)
  }

  /** `new CacheEntry(source, id, cache)`: the waiter's subscription opens
      the shared subscription, and the source's synchronous events arrive
      before the constructor returns. The entry ends up closed exactly when
      one of them tore it down. */
  function Construct<T, E>(revision: Revision, sync: seq<SourceEvent<T, E>>, now: nat): (t: Transition<T, E>)
    ensures Valid(t.entry, now) && t.entry.grace == DeferredUnsubscribeDelay
    ensures t.entry.sourceSubscriptions == 1
    ensures t.cleanups > 0 <==> !t.entry.connected
    ensures sync == [] ==> t == Transition(Create(DeferredUnsubscribeDelay), 0)
    decreases |sync|
  {
    if |sync| == 0 then Transition(Create(DeferredUnsubscribeDelay), 0)
    else
      var prev := Construct(revision, sync[..|sync| - 1], now);
      var s := StepEntry(revision, prev.entry, Source(sync[|sync| - 1]), now);
      Transition(s.entry, prev.cleanups + s.cleanups)
  }

  /** The registry after an entry called `removeObservable(key, ref)` `n`
      times in a row: the identity guard makes the calls after the first
      ones that change nothing. */
  function RemoveTimes(c: R.ObservableCache, key: string, ref: R.EntryRef, n: nat): (r: R.ObservableCache)
    ensures r == (if n == 0 then c else R.RemoveObservable(c, key, ref))
    decreases n
  {
    if n == 0 then c else R.RemoveObservable(RemoveTimes(c, key, ref, n - 1), key, ref)
  }

  /** `createDedupedObservable` for an absent key: construct the entry (its
      removal requests meet the registry as it was, without the key), then
      store it. */
  function PreloadNew<T, E>(w: World<T, E>, key: string, sync: seq<SourceEvent<T, E>>): (r: World<T, E>)
    requires Inv(w) && key !in w.cache.active
    ensures Inv(r)
    ensures r.cache.active == w.cache.active[key := w.cache.nextRef]
    ensures r.entries == w.entries[w.cache.nextRef := Construct(w.revision, sync, w.now).entry]
    ensures r.bornClosed == w.bornClosed + (if r.entries[w.cache.nextRef].connected then {} else {w.cache.nextRef})
    ensures r.revision == w.revision && r.now == w.now
    ensures |r.cache.active| == |w.cache.active| + 1
  {
    var ref := w.cache.nextRef;
    var t := Construct(w.revision, sync, w.now);
    var before := RemoveTimes(w.cache, key, ref, t.cleanups);
    assert before == w.cache;
    var c := R.CreateDeduped(before, key);
    var born := if t.entry.connected then w.bornClosed else w.bornClosed + {ref};
    var r := w.(cache := c.cache, keys := w.keys[ref := key], entries := w.entries[ref := t.entry], bornClosed := born);
    assert Inv(r) by { PreloadKeepsInv(w, key, t, born); }
    r
  }

  function Apply<T, E>(w: World<T, E>, a: Action<T, E>): (r: World<T, E>)
    requires Inv(w)
    ensures Inv(r)
  {
    match a
    case Preload(key, sync) =>
      if key in w.cache.active then w else PreloadNew(w, key, sync)
    case Deliver(ref, ev) =>
      if ref !in w.entries then w
      else
        var t := StepEntry(w.revision, w.entries[ref], ev, w.now);
        var r := w.(entries := w.entries[ref := t.entry],
                    cache := RemoveTimes(w.cache, w.keys[ref], ref, t.cleanups));
        assert Inv(r) by { DeliverKeepsInv(w, ref, t); }
        r
    case Elapse(dt) =>
      var r := w.(now := w.now + dt);
      assert Inv(r) by {
        forall ref | ref in w.entries ensures Valid(w.entries[ref], r.now) {
          ValidLater(w.entries[ref], w.now, r.now);
        }
      }
      r
  }

  lemma PreloadKeepsInv<T, E>(w: World<T, E>, key: string, t: Transition<T, E>, born: set<R.EntryRef>)
    requires Inv(w) && key !in w.cache.active
    requires Valid(t.entry, w.now) && t.entry.grace == DeferredUnsubscribeDelay
    requires t.entry.sourceSubscriptions == 1
    requires born == if t.entry.connected then w.bornClosed else w.bornClosed + {w.cache.nextRef}
    ensures var ref := w.cache.nextRef;
            Inv(w.(cache := R.CreateDeduped(w.cache, key).cache, keys := w.keys[ref := key],
                   entries := w.entries[ref := t.entry], bornClosed := born))
  {
    var ref := w.cache.nextRef;
    var c := R.CreateDeduped(w.cache, key);
    var r := w.(cache := c.cache, keys := w.keys[ref := key], entries := w.entries[ref := t.entry], bornClosed := born);
    assert c.entry == ref && c.cache.nextRef == ref + 1;
    assert HeapValid(r);
    forall k | k in r.cache.active
      ensures RegisteredOnce(r, k)
    {
      if k != key {
        assert RegisteredOnce(w, k);
        assert r.cache.active[k] == w.cache.active[k] < ref;
      }
    }
  }

  /** Replacing entry `ref` by a valid successor and applying its removal
      requests keeps the invariant, provided the successor closed its source
      subscription only if it asked for removal, and subscribed the source
      again only if it had been disconnected. */
  lemma DeliverKeepsInv<T, E>(w: World<T, E>, ref: R.EntryRef, t: Transition<T, E>)
    requires Inv(w) && ref in w.entries
    requires Valid(t.entry, w.now) && t.entry.grace == DeferredUnsubscribeDelay
    requires t.cleanups > 0 <==> w.entries[ref].connected && !t.entry.connected
    requires w.entries[ref].connected ==> t.entry.sourceSubscriptions == w.entries[ref].sourceSubscriptions
    ensures Inv(w.(entries := w.entries[ref := t.entry],
                   cache := RemoveTimes(w.cache, w.keys[ref], ref, t.cleanups)))
  {
    var c := RemoveTimes(w.cache, w.keys[ref], ref, t.cleanups);
    var r := w.(entries := w.entries[ref := t.entry], cache := c);
    RemovalShrinks(w.cache, w.keys[ref], ref, t.cleanups);
    assert R.Valid(c);
    assert HeapValid(r) by {
      assert r.keys.Keys == r.entries.Keys;
      forall x | x in r.entries
        ensures x < c.nextRef && Valid(r.entries[x], r.now) && r.entries[x].grace == DeferredUnsubscribeDelay
      {
        if x != ref { assert r.entries[x] == w.entries[x]; }
      }
    }
    forall k | k in c.active
      ensures RegisteredOnce(r, k)
    {
      assert RegisteredOnce(w, k);
      if c.active[k] == ref {
        RegisteredTargetKept(w, ref, t, k);
      }
    }
  }

  /** Removal requests only ever drop bindings. */
  lemma RemovalShrinks(c: R.ObservableCache, key: string, ref: R.EntryRef, n: nat)
    ensures RemoveTimes(c, key, ref, n).nextRef == c.nextRef
    ensures forall k :: k in RemoveTimes(c, key, ref, n).active ==>
              k in c.active && RemoveTimes(c, key, ref, n).active[k] == c.active[k]
  {
  }

  /** A registered entry that is still registered after its own step asked
      for no removal, so an open entry stayed open on the same source
      subscription. */
  lemma RegisteredTargetKept<T, E>(w: World<T, E>, ref: R.EntryRef, t: Transition<T, E>, k: string)
    requires Inv(w) && ref in w.entries && k in w.cache.active && w.cache.active[k] == ref
    requires t.cleanups > 0 <==> w.entries[ref].connected && !t.entry.connected
    requires w.entries[ref].connected ==> t.entry.sourceSubscriptions == w.entries[ref].sourceSubscriptions
    requires k in RemoveTimes(w.cache, w.keys[ref], ref, t.cleanups).active
    ensures t.cleanups == 0
    ensures ref !in w.bornClosed ==> t.entry.connected && t.entry.sourceSubscriptions == 1
  {
    assert RegisteredOnce(w, k);
    assert w.keys[ref] == k;
  }

  function Run<T, E>(w: World<T, E>, actions: seq<Action<T, E>>): (r: World<T, E>)
    requires Inv(w)
    ensures Inv(r)
    decreases |actions|
  {
    if |actions| == 0 then w else Run(Apply(w, actions[0]), actions[1..])
  }

  /** The registry size, as `activeObservables.size`. */
  function Size<T, E>(w: World<T, E>): nat {
    |w.cache.active|
  }

  /** Dedup: preloading a key that is registered changes nothing (the
      factory is not called); preloading a new key adds exactly that key,
      bound to a new entry, whatever the source does during construction.
      With no synchronous event the new entry is open and suspends. */
  lemma PreloadDedups<T, E>(w: World<T, E>, key: string, sync: seq<SourceEvent<T, E>>)
    requires Inv(w)
    ensures key in w.cache.active ==> Apply(w, Preload(key, sync)) == w
    ensures key !in w.cache.active ==>
              var r := Apply(w, Preload(key, sync));
              && r.cache.active.Keys == w.cache.active.Keys + {key}
              && Size(r) == Size(w) + 1
              && r.cache.active[key] !in w.entries
              && (sync == [] ==> r.entries[r.cache.active[key]].connected
                                 && Read(r.entries[r.cache.active[key]].resource).Suspends?)
  {
    if key !in w.cache.active {
      assert Apply(w, Preload(key, sync)) == PreloadNew(w, key, sync);
      PreloadNewAddsKey(w, key, sync);
    }
  }

  lemma PreloadNewAddsKey<T, E>(w: World<T, E>, key: string, sync: seq<SourceEvent<T, E>>)
    requires Inv(w) && key !in w.cache.active
    ensures PreloadNew(w, key, sync).cache.active.Keys == w.cache.active.Keys + {key}
    ensures Size(PreloadNew(w, key, sync)) == Size(w) + 1
    ensures PreloadNew(w, key, sync).cache.active[key] == w.cache.nextRef && w.cache.nextRef !in w.entries
    ensures sync == [] ==> PreloadNew(w, key, sync).entries[w.cache.nextRef].connected
    ensures sync == [] ==> Read(PreloadNew(w, key, sync).entries[w.cache.nextRef].resource).Suspends?
  {
  }

  /** A source that completes synchronously (current revision) or fails
      synchronously (older revision) tears its entry down during
      construction, yet the entry is registered afterwards, closed: its
      removal requests ran before the key was stored. */
  lemma SynchronousEndLeavesClosedEntry<T, E>(w: World<T, E>, key: string, err: E)
    requires Inv(w) && key !in w.cache.active
    ensures w.revision == Current ==>
              var r := Apply(w, Preload(key, [Done]));
              key in r.cache.active && !r.entries[r.cache.active[key]].connected
              && r.cache.active[key] in r.bornClosed
    ensures w.revision == Legacy ==>
              var r := Apply(w, Preload(key, [Error(err)]));
              key in r.cache.active && !r.entries[r.cache.active[key]].connected
              && Read(r.entries[r.cache.active[key]].resource) == Throws(err)
  {
    var one: seq<SourceEvent<T, E>> := if w.revision == Current then [Done] else [Error(err)];
    assert one[..0] == [];
  }

  /** In every world reachable from the empty registry, each registered
      entry whose source did not end during construction holds its source
      subscription open and has subscribed the source exactly once, however
      many subscribers came and went; a registered entry that is closed was
      closed from the start. */
  lemma {:induction false} RegisteredEntrySubscribedOnce<T, E>(revision: Revision, actions: seq<Action<T, E>>, key: string)
    ensures var w := Run(Init<T, E>(revision), actions);
            key in w.cache.active ==>
              && (w.cache.active[key] !in w.bornClosed ==>
                    && w.entries[w.cache.active[key]].connected
                    && w.entries[w.cache.active[key]].sourceSubscriptions == 1)
              && (!w.entries[w.cache.active[key]].connected ==> w.cache.active[key] in w.bornClosed)
  {
    var w := Run(Init<T, E>(revision), actions);
    if key in w.cache.active {
      assert RegisteredOnce(w, key);
    }
  }

  /** In the current revision an entry with a subscriber or its waiter
      attached stays registered under the same reference through any action
      other than its source completing. */
  lemma HeldEntryStaysRegistered<T, E>(w: World<T, E>, a: Action<T, E>, key: string)
    requires Inv(w) && w.revision == Current && key in w.cache.active
    requires var e := w.entries[w.cache.active[key]]; e.subscribers > 0 || e.waiting
    requires a != Deliver(w.cache.active[key], Source(Done))
    ensures key in Apply(w, a).cache.active
    ensures Apply(w, a).cache.active[key] == w.cache.active[key]
  {
    match a
    case Preload(k, sync) =>
    case Elapse(_) =>
    case Deliver(target, ev) =>
      if target in w.entries {
        HeldEntrySurvivesDelivery(w, target, ev, key);
      }
  }

  lemma HeldEntrySurvivesDelivery<T, E>(w: World<T, E>, target: R.EntryRef, ev: Event<T, E>, key: string)
    requires Inv(w) && w.revision == Current && key in w.cache.active && target in w.entries
    requires var e := w.entries[w.cache.active[key]]; e.subscribers > 0 || e.waiting
    requires target == w.cache.active[key] ==> ev != Source(Done)
    ensures var t := StepEntry(w.revision, w.entries[target], ev, w.now);
            var c := RemoveTimes(w.cache, w.keys[target], target, t.cleanups);
            key in c.active && c.active[key] == w.cache.active[key]
  {
    var ref := w.cache.active[key];
    assert RegisteredOnce(w, key);
    var t := StepEntry(w.revision, w.entries[target], ev, w.now);
    if target == ref {
      CacheEntry.HeldEntryStays(w.entries[ref], ev, w.now);
      assert t.cleanups == 0;
    } else {
      assert w.keys[target] != key || w.cache.active[w.keys[target]] != target;
    }
  }
}

=== FILE: query_cache.dfy ===
/**
 * `src/firestore/index.tsx`: the `QueryCache` that deduplicates collection
 * subscriptions, the `hashOptions` key derivation, the skip-cached-snapshots
 * filter and the document cache key.
 *
 * `QueryCache` keeps one bucket per options hash; a bucket is a JavaScript
 * `Map` from query object to cache entry, iterated in insertion order.
 * Queries and entries are objects, known here by reference; `Query.isEqual`
 * is an abstract predicate on query references.
 */
module QueryCache {
  import opened Base

  type QueryRef = nat
  type EntryRef = nat

  /** `ReactFireOptions`, of which only `skipCache` matters here. */
  datatype Options = Options(skipCache: Option<bool>)

  /** `const { skipCache = false } = options || {}`. */
  function SkipCache(options: Option<Options>): bool {
    options.Some? && options.value.skipCache == Some(true)
  }

  const SkipTrue: string := "|skipCache:true"
  const SkipFalse: string := "|skipCache:false"

  /** `hashOptions`: the options' bucket key. */
  function HashOptions(options: Option<Options>): (h: string)
    ensures h == (if SkipCache(options) then SkipTrue else SkipFalse)
  {
    "|skipCache:" + (if SkipCache(options) then "true" else "false")
  }

  /** The hash depends only on the effective `skipCache`: absent options,
      `{}` and `{skipCache: false}` share one bucket, `{skipCache: true}`
      has another. */
  lemma HashOptionsSeparatesSkipCache(o1: Option<Options>, o2: Option<Options>)
    ensures HashOptions(o1) == HashOptions(o2) <==> SkipCache(o1) == SkipCache(o2)
    ensures HashOptions(None) == HashOptions(Some(Options(None))) == HashOptions(Some(Options(Some(false))))
    ensures HashOptions(Some(Options(Some(true)))) != HashOptions(None)
  {
    assert SkipTrue != SkipFalse by { assert |SkipTrue| != |SkipFalse|; }
  }

  /** One `bucket.set(query, entry)` pair. */
  datatype Binding = Binding(query: QueryRef, entry: EntryRef)

  /** A `Map<Query, CacheEntry>` in insertion order. */
  type Bucket = seq<Binding>

  ghost predicate UniqueQueries(b: Bucket) {
    forall i, j :: 0 <= i < j < |b| ==> b[i].query != b[j].query
  }

  /** `nextEntry` stands for the allocator of `new CacheEntry(...)`. */
  datatype QueryCache = QueryCache(buckets: map<string, Bucket>, nextEntry: EntryRef)

  ghost predicate Valid(c: QueryCache) {
    forall h :: h in c.buckets ==>
      && UniqueQueries(c.buckets[h])
      && forall i :: 0 <= i < |c.buckets[h]| ==> c.buckets[h][i].entry < c.nextEntry
  }

  /** `bucket.get(query)`: lookup by identity. */
  function BucketGet(b: Bucket, q: QueryRef): (r: Option<EntryRef>)
    ensures r.None? <==> forall i :: 0 <= i < |b| ==> b[i].query != q
    ensures r.Some? ==> exists i :: 0 <= i < |b| && b[i] == Binding(q, r.value)
    decreases |b|
  {
    if |b| == 0 then None
    else if b[0].query == q then Some(b[0].entry)
    else
      var r := BucketGet(b[1..], q);
      assert forall i :: 1 <= i < |b| ==> b[i] == b[1..][i - 1];
      r
  }

  /** The `for ... of bucket` scan: the entry of the first stored query,
      in insertion order, that `q.isEqual` accepts. */
  function FirstEqual(b: Bucket, q: QueryRef, isEqual: (QueryRef, QueryRef) -> bool): (r: Option<EntryRef>)
    ensures r.None? <==> forall i :: 0 <= i < |b| ==> !isEqual(q, b[i].query)
    ensures r.Some? ==> exists i :: 0 <= i < |b| && b[i].entry == r.value && isEqual(q, b[i].query)
                                  && forall j :: 0 <= j < i ==> !isEqual(q, b[j].query)
    decreases |b|
  {
    if |b| == 0 then None
    else if isEqual(q, b[0].query) then Some(b[0].entry)
    else
      var r := FirstEqual(b[1..], q, isEqual);
      assert forall i :: 1 <= i < |b| ==> b[i] == b[1..][i - 1];
      r
  }

  /** `bucket.set(query, entry)`: a new query is appended at the end of the
      insertion order; a stored one keeps its position and only its entry
      changes. */
  function BucketSet(b: Bucket, q: QueryRef, e: EntryRef): (r: Bucket)
    requires UniqueQueries(b)
    ensures BucketGet(b, q).None? ==> r == b + [Binding(q, e)]
    ensures BucketGet(b, q).Some? ==>
              && |r| == |b|
              && forall i :: 0 <= i < |b| ==> r[i] == (if b[i].query == q then Binding(q, e) else b[i])
    ensures UniqueQueries(r)
    ensures BucketGet(r, q) == Some(e)
    ensures forall x :: x != q ==> BucketGet(r, x) == BucketGet(b, x)
  {
    if BucketGet(b, q).None? then
      AppendLookups(b, q, e);
      b + [Binding(q, e)]
    else
      OverwriteLookups(b, q, e);
      Overwrite(b, q, e)
  }

  /** The bucket with `q`'s entry replaced by `e`, position by position. */
  function Overwrite(b: Bucket, q: QueryRef, e: EntryRef): (r: Bucket)
    ensures |r| == |b|
    ensures forall i :: 0 <= i < |b| ==> r[i] == (if b[i].query == q then Binding(q, e) else b[i])
  {
    seq(|b|, i requires 0 <= i < |b| => if b[i].query == q then Binding(q, e) else b[i])
  }

  lemma AppendLookups(b: Bucket, q: QueryRef, e: EntryRef)
    requires UniqueQueries(b) && BucketGet(b, q).None?
    ensures UniqueQueries(b + [Binding(q, e)])
    ensures BucketGet(b + [Binding(q, e)], q) == Some(e)
    ensures forall x :: x != q ==> BucketGet(b + [Binding(q, e)], x) == BucketGet(b, x)
  {
    forall x ensures BucketGet(b + [Binding(q, e)], x) == if x == q then Some(e) else BucketGet(b, x) {
      LookupPastEnd(b, Binding(q, e), x);
    }
  }

  lemma OverwriteLookups(b: Bucket, q: QueryRef, e: EntryRef)
    requires UniqueQueries(b) && BucketGet(b, q).Some?
    ensures UniqueQueries(Overwrite(b, q, e))
    ensures BucketGet(Overwrite(b, q, e), q) == Some(e)
    ensures forall x :: x != q ==> BucketGet(Overwrite(b, q, e), x) == BucketGet(b, x)
  {
    var r := Overwrite(b, q, e);
    var k :| 0 <= k < |b| && b[k].query == q;
    assert UniqueQueries(r);
    LookupUnique(r, k);
    forall x | x != q ensures BucketGet(r, x) == BucketGet(b, x) {
      SameQueriesSameLookup(b, r, x);
    }
  }

  /** Appending a binding only adds a lookup for a query the bucket did
      not hold. */
  lemma {:induction false} LookupPastEnd(b: Bucket, last: Binding, x: QueryRef)
    requires BucketGet(b, last.query).None?
    ensures BucketGet(b + [last], x) == if x == last.query then Some(last.entry) else BucketGet(b, x)
    decreases |b|
  {
    if |b| > 0 {
      assert (b + [last])[1..] == b[1..] + [last];
      if b[0].query != x {
        LookupPastEnd(b[1..], last, x);
      }
    }
  }

  /** In a bucket without repeated queries, each query finds its own
      binding. */
  lemma {:induction false} LookupUnique(b: Bucket, i: nat)
    requires UniqueQueries(b) && i < |b|
    ensures BucketGet(b, b[i].query) == Some(b[i].entry)
    decreases |b|
  {
    if i > 0 {
      assert b[1..][i - 1] == b[i];
      LookupUnique(b[1..], i - 1);
    }
  }

  /** Two buckets that bind `x` at the same positions to the same entries
      agree on the lookup of `x`. */
  lemma {:induction false} SameQueriesSameLookup(b: Bucket, r: Bucket, x: QueryRef)
    requires |b| == |r|
    requires forall i :: 0 <= i < |b| ==> (b[i].query == x <==> r[i].query == x)
    requires forall i :: 0 <= i < |b| && b[i].query == x ==> r[i] == b[i]
    ensures BucketGet(r, x) == BucketGet(b, x)
    decreases |b|
  {
    if |b| > 0 && b[0].query != x {
      SameQueriesSameLookup(b[1..], r[1..], x);
    }
  }

  /** `bucket.delete(query)`: the bucket without `q`'s pair, the other
      pairs in their insertion order. */
  function BucketDelete(b: Bucket, q: QueryRef): (r: Bucket)
    requires UniqueQueries(b)
    ensures BucketGet(b, q).None? ==> r == b
    ensures forall k :: 0 <= k < |b| && b[k].query == q ==> r == b[..k] + b[k + 1..]
    ensures UniqueQueries(r)
    ensures BucketGet(r, q).None?
    ensures forall x :: x != q ==> BucketGet(r, x) == BucketGet(b, x)
    decreases |b|
  {
    if |b| == 0 then []
    else
      var rest := BucketDelete(b[1..], q);
      if b[0].query == q then
        DeleteAtHead(b, q, rest);
        rest
      else
        DeleteBehindHead(b, q, rest);
        LookupsBehindHead(b, q, rest);
        [b[0]] + rest
  }

  /** The first pair is `q`'s: the rest of the bucket, which cannot hold
      `q` again, is the result. */
  lemma DeleteAtHead(b: Bucket, q: QueryRef, rest: Bucket)
    requires UniqueQueries(b) && |b| > 0 && b[0].query == q
    requires BucketGet(b[1..], q).None? ==> rest == b[1..]
    ensures BucketGet(b, q).Some?
    ensures forall k :: 0 <= k < |b| && b[k].query == q ==> rest == b[..k] + b[k + 1..]
    ensures UniqueQueries(rest)
    ensures BucketGet(rest, q).None?
    ensures forall x :: x != q ==> BucketGet(rest, x) == BucketGet(b, x)
  {
    assert forall i :: 1 <= i < |b| ==> b[i] == b[1..][i - 1];
    assert b[..0] + b[1..] == b[1..];
  }

  /** The first pair is not `q`'s: it stays in front of the rest's
      deletion, in order. */
  lemma DeleteBehindHead(b: Bucket, q: QueryRef, rest: Bucket)
    requires UniqueQueries(b) && |b| > 0 && b[0].query != q
    requires BucketGet(b[1..], q).None? ==> rest == b[1..]
    requires forall k :: 0 <= k < |b[1..]| && b[1..][k].query == q ==> rest == b[1..][..k] + b[1..][k + 1..]
    ensures BucketGet(b, q).None? ==> [b[0]] + rest == b
    ensures forall k :: 0 <= k < |b| && b[k].query == q ==> [b[0]] + rest == b[..k] + b[k + 1..]
  {
    forall k | 1 <= k < |b| && b[k].query == q ensures [b[0]] + rest == b[..k] + b[k + 1..] {
      assert b[1..][k - 1] == b[k];
      SlicesAroundLaterPosition(b, k);
    }
    if BucketGet(b, q).None? {
      assert BucketGet(b[1..], q).None?;
      assert [b[0]] + b[1..] == b;
    }
  }

  /** ... and the lookups of the result are those of `b` without `q`. */
  lemma LookupsBehindHead(b: Bucket, q: QueryRef, rest: Bucket)
    requires UniqueQueries(b) && |b| > 0 && b[0].query != q
    requires UniqueQueries(rest)
    requires BucketGet(rest, q).None?
    requires forall x :: x != q ==> BucketGet(rest, x) == BucketGet(b[1..], x)
    ensures UniqueQueries([b[0]] + rest)
    ensures BucketGet([b[0]] + rest, q).None?
    ensures forall x :: x != q ==> BucketGet([b[0]] + rest, x) == BucketGet(b, x)
  {
    assert forall i :: 1 <= i < |b| ==> b[i] == b[1..][i - 1];
    assert BucketGet(b[1..], b[0].query).None?;
    ConsLookups(b[0], rest);
  }

  /** Putting a pair for a new query in front of a bucket. */
  lemma ConsLookups(head: Binding, rest: Bucket)
    requires UniqueQueries(rest) && BucketGet(rest, head.query).None?
    ensures UniqueQueries([head] + rest)
    ensures forall x :: x != head.query ==> BucketGet([head] + rest, x) == BucketGet(rest, x)
  {
    assert ([head] + rest)[1..] == rest;
  }

  lemma SlicesAroundLaterPosition<X>(b: seq<X>, k: nat)
    requires 1 <= k < |b|
    ensures b[..k] + b[k + 1..] == [b[0]] + (b[1..][..k - 1] + b[1..][k..])
  {
    assert b[..k] == [b[0]] + b[1..][..k - 1];
    assert b[k + 1..] == b[1..][k..];
  }

  /** `get(query, options)`: no bucket for the hash gives `undefined`;
      otherwise an identity match wins, then the first `isEqual` match. */
  function Get(c: QueryCache, q: QueryRef, options: Option<Options>, isEqual: (QueryRef, QueryRef) -> bool): (r: Option<EntryRef>)
    ensures HashOptions(options) !in c.buckets ==> r.None?
    ensures HashOptions(options) in c.buckets ==>
              var b := c.buckets[HashOptions(options)];
              && (BucketGet(b, q).Some? ==> r == BucketGet(b, q))
              && (BucketGet(b, q).None? ==> r == FirstEqual(b, q, isEqual))
  {
    var h := HashOptions(options);
    if h !in c.buckets then None
    else
      var b := c.buckets[h];
      match BucketGet(b, q)
      case Some(e) => Some(e)
      case None => FirstEqual(b, q, isEqual)
  }

  /** `insert(query, options)`: a fresh entry bound to the query in the
      options' bucket, which is created when missing; other buckets are
      untouched. */
  function Insert(c: QueryCache, q: QueryRef, options: Option<Options>): (r: (QueryCache, EntryRef))
    requires Valid(c)
    ensures Valid(r.0)
    ensures r.1 == c.nextEntry && r.0.nextEntry == c.nextEntry + 1
    ensures r.0.buckets.Keys == c.buckets.Keys + {HashOptions(options)}
    ensures BucketGet(r.0.buckets[HashOptions(options)], q) == Some(r.1)
    ensures forall h :: h in c.buckets && h != HashOptions(options) ==> r.0.buckets[h] == c.buckets[h]
    ensures r.0.buckets[HashOptions(options)]
         == BucketSet(if HashOptions(options) in c.buckets then c.buckets[HashOptions(options)] else [], q, r.1)
    ensures HashOptions(options) in c.buckets ==>
              forall x :: x != q ==> BucketGet(r.0.buckets[HashOptions(options)], x) == BucketGet(c.buckets[HashOptions(options)], x)
  {
    var h := HashOptions(options);
    var e := c.nextEntry;
    var bucket := if h in c.buckets then c.buckets[h] else [];
    var r := QueryCache(c.buckets[h := BucketSet(bucket, q, e)], e + 1);
    assert Valid(r) by {
      forall h' | h' in r.buckets
        ensures forall i :: 0 <= i < |r.buckets[h']| ==> r.buckets[h'][i].entry < r.nextEntry
      {
      }
    }
    (r, e)
  }

  /** `getOrInsert`: the stored entry when `get` finds one, else `insert`. */
  function GetOrInsert(c: QueryCache, q: QueryRef, options: Option<Options>, isEqual: (QueryRef, QueryRef) -> bool): (r: (QueryCache, EntryRef))
    requires Valid(c)
    ensures Valid(r.0)
    ensures Get(c, q, options, isEqual).Some? ==> r == (c, Get(c, q, options, isEqual).value)
    ensures Get(c, q, options, isEqual).None? ==> r == Insert(c, q, options)
  {
    match Get(c, q, options, isEqual)
    case Some(e) => (c, e)
    case None => Insert(c, q, options)
  }

  /** No second entry for an equal query: when the options' bucket already
      holds the query itself or a query it `isEqual`s, `getOrInsert` leaves
      the cache as it was. */
  lemma NoDuplicateForEqualQuery(c: QueryCache, q: QueryRef, stored: QueryRef, options: Option<Options>,
                                 isEqual: (QueryRef, QueryRef) -> bool, i: nat)
    requires Valid(c)
    requires HashOptions(options) in c.buckets
    requires i < |c.buckets[HashOptions(options)]|
    requires c.buckets[HashOptions(options)][i].query == stored
    requires stored == q || isEqual(q, stored)
    ensures GetOrInsert(c, q, options, isEqual).0 == c
  {
  }

  /** An entry just inserted is found again under the same query and
      options, however `isEqual` behaves. */
  lemma GetAfterInsert(c: QueryCache, q: QueryRef, options: Option<Options>, isEqual: (QueryRef, QueryRef) -> bool)
    requires Valid(c)
    ensures Get(Insert(c, q, options).0, q, options, isEqual) == Some(Insert(c, q, options).1)
  {
  }

  /** `remove(query, options, entry)` as written: the identity check looks
      the query up with DEFAULT options, but the deletion uses the given
      options' bucket. */
  function RemoveAsWritten(c: QueryCache, q: QueryRef, options: Option<Options>, entry: EntryRef,
                           isEqual: (QueryRef, QueryRef) -> bool): (r: QueryCache)
    requires Valid(c)
    ensures Valid(r)
    ensures Get(c, q, None, isEqual) != Some(entry) ==> r == c
    ensures Get(c, q, None, isEqual) == Some(entry) ==> DeletedFrom(c, r, q, HashOptions(options))
  {
    if Get(c, q, None, isEqual) == Some(entry) then DeleteFromBucket(c, q, options) else c
  }

  /** `remove` with the identity check made against the bucket it deletes
      from, as the entry's own options require. */
  function Remove(c: QueryCache, q: QueryRef, options: Option<Options>, entry: EntryRef,
                  isEqual: (QueryRef, QueryRef) -> bool): (r: QueryCache)
    requires Valid(c)
    ensures Valid(r)
    ensures Get(c, q, options, isEqual) != Some(entry) ==> r == c
    ensures Get(c, q, options, isEqual) == Some(entry) ==> DeletedFrom(c, r, q, HashOptions(options))
  {
    if Get(c, q, options, isEqual) == Some(entry) then DeleteFromBucket(c, q, options) else c
  }

  /** `r` is `c` with query `q` unbound in bucket `h`, if there is one:
      no bucket appears or disappears, the other queries of bucket `h` keep
      their entries and order, and every other bucket is untouched. */
  ghost predicate DeletedFrom(c: QueryCache, r: QueryCache, q: QueryRef, h: string) {
    && r.nextEntry == c.nextEntry
    && r.buckets.Keys == c.buckets.Keys
    && (h in c.buckets ==>
          && BucketGet(r.buckets[h], q).None?
          && (forall x :: x != q ==> BucketGet(r.buckets[h], x) == BucketGet(c.buckets[h], x))
          && (BucketGet(c.buckets[h], q).None? ==> r.buckets[h] == c.buckets[h])
          && (forall k :: 0 <= k < |c.buckets[h]| && c.buckets[h][k].query == q ==>
                r.buckets[h] == c.buckets[h][..k] + c.buckets[h][k + 1..]))
    && (forall h' :: h' in c.buckets && h' != h ==> r.buckets[h'] == c.buckets[h'])
  }

  /** `const bucket = this.buckets.get(hash); if (bucket) bucket.delete(query)`. */
  function DeleteFromBucket(c: QueryCache, q: QueryRef, options: Option<Options>): (r: QueryCache)
    requires Valid(c)
    ensures Valid(r)
    ensures DeletedFrom(c, r, q, HashOptions(options))
  {
    var h := HashOptions(options);
    if h in c.buckets then c.(buckets := c.buckets[h := BucketDelete(c.buckets[h], q)]) else c
  }

  /** The defect: an entry inserted with `skipCache: true` is never removed
      by the code as written, because the identity check looks in the
      default bucket, which cannot hold the fresh entry. */
  lemma SkipCacheEntryNeverRemovedAsWritten(c: QueryCache, q: QueryRef, isEqual: (QueryRef, QueryRef) -> bool)
    requires Valid(c)
    ensures var skip := Some(Options(Some(true)));
            var (c1, e) := Insert(c, q, skip);
            && BucketGet(c1.buckets[HashOptions(skip)], q) == Some(e)
            && RemoveAsWritten(c1, q, skip, e, isEqual) == c1
  {
    var skip := Some(Options(Some(true)));
    var (c1, e) := Insert(c, q, skip);
    HashOptionsSeparatesSkipCache(None, skip);
    var found := Get(c1, q, None, isEqual);
    if found == Some(e) {
      var b := c1.buckets[HashOptions(None)];
      assert b == c.buckets[HashOptions(None)];
      assert exists i :: 0 <= i < |b| && b[i].entry == e;
      assert false;
    }
  }

  /** The corrected removal deletes the entry an `insert` made, in the
      bucket it was made in, for every options value, and leaves the other
      buckets alone. */
  lemma RemoveUndoesInsert(c: QueryCache, q: QueryRef, options: Option<Options>, isEqual: (QueryRef, QueryRef) -> bool)
    requires Valid(c)
    ensures var (c1, e) := Insert(c, q, options);
            var c2 := Remove(c1, q, options, e, isEqual);
            && BucketGet(c2.buckets[HashOptions(options)], q).None?
            && forall h :: h in c.buckets && h != HashOptions(options) ==> c2.buckets[h] == c.buckets[h]
  {
    GetAfterInsert(c, q, options, isEqual);
  }

  /** For default options the two removals agree. */
  lemma RemovalsAgreeOnDefaults(c: QueryCache, q: QueryRef, entry: EntryRef, isEqual: (QueryRef, QueryRef) -> bool)
    requires Valid(c)
    ensures RemoveAsWritten(c, q, None, entry, isEqual) == Remove(c, q, None, entry, isEqual)
    ensures RemoveAsWritten(c, q, Some(Options(Some(false))), entry, isEqual)
         == Remove(c, q, Some(Options(Some(false))), entry, isEqual)
  {
  }

  /** A snapshot, of which only `metadata.fromCache` matters here. */
  datatype Snapshot = Snapshot(fromCache: bool, data: nat)

  /** `skipWhile(snap => snap.metadata.fromCache)`: drop the leading run of
      cached snapshots and pass the rest, cached or not. */
  function SkipWhileFromCache(snaps: seq<Snapshot>): (r: seq<Snapshot>)
    ensures |r| <= |snaps| && r == snaps[|snaps| - |r|..]
    ensures forall i :: 0 <= i < |snaps| - |r| ==> snaps[i].fromCache
    ensures |r| > 0 ==> !r[0].fromCache
    decreases |snaps|
  {
    if |snaps| == 0 || !snaps[0].fromCache then snaps
    else
      var r := SkipWhileFromCache(snaps[1..]);
      assert forall i :: 1 <= i < |snaps| ==> snaps[i] == snaps[1..][i - 1];
      r
  }

  /** The stream a query or document subscription yields for `options`. */
  function Emitted(snaps: seq<Snapshot>, options: Option<Options>): (r: seq<Snapshot>)
    ensures !SkipCache(options) ==> r == snaps
    ensures SkipCache(options) ==> r == SkipWhileFromCache(snaps)
  {
    if SkipCache(options) then SkipWhileFromCache(snaps) else snaps
  }

  /** With `skipCache`, a stream that opens with a server snapshot is passed
      whole, later cached snapshots included; one made only of cached
      snapshots yields nothing. */
  lemma SkipCacheExamples(server: Snapshot, cached: Snapshot)
    requires !server.fromCache && cached.fromCache
    ensures Emitted([server, cached], Some(Options(Some(true)))) == [server, cached]
    ensures Emitted([cached, cached], Some(Options(Some(true)))) == []
    ensures Emitted([cached, server], Some(Options(Some(true)))) == [server]
  {
  }

  const DocPrefix: string := "firestore doc: "

  /** The `useFirestoreDoc` observable id. */
  function DocKey(path: string, options: Option<Options>): (k: string)
    ensures |k| == |DocPrefix| + |path| + |HashOptions(options)|
    ensures k[..|DocPrefix|] == DocPrefix
    ensures k[|DocPrefix|..|DocPrefix| + |path|] == path
    ensures k[|DocPrefix| + |path|..] == HashOptions(options)
  {
    DocPrefix + path + HashOptions(options)
  }

  /** The two hashes differ in their 15th character from the end, so no
      two keys with different `skipCache` are equal. */
  lemma KeysWithDifferentSkipCacheDiffer(pt: string, pf: string)
    ensures DocPrefix + pt + SkipTrue != DocPrefix + pf + SkipFalse
  {
    var kt, kf := DocPrefix + pt + SkipTrue, DocPrefix + pf + SkipFalse;
    if kt == kf {
      CharFromEnd(DocPrefix + pt, SkipTrue, 0);
      CharFromEnd(DocPrefix + pf, SkipFalse, 1);
      assert false;
    }
  }

  lemma CharFromEnd(a: string, suffix: string, k: nat)
    ensures k < |suffix| ==> (a + suffix)[|a + suffix| - |suffix| + k] == suffix[k]
  {
  }

  /** Equal keys with the same hash have the same path. */
  lemma SameHashSamePath(p1: string, p2: string, h: string)
    requires DocPrefix + p1 + h == DocPrefix + p2 + h
    ensures p1 == p2
  {
    var k := DocPrefix + p1 + h;
    assert p1 == k[|DocPrefix|..|k| - |h|];
    assert p2 == (DocPrefix + p2 + h)[|DocPrefix|..|k| - |h|];
  }

  /** Document keys are injective: two subscriptions share a key exactly
      when they have the same path and the same effective `skipCache`. */
  lemma DocKeyInjective(p1: string, o1: Option<Options>, p2: string, o2: Option<Options>)
    ensures DocKey(p1, o1) == DocKey(p2, o2) <==> p1 == p2 && SkipCache(o1) == SkipCache(o2)
  {
    if DocKey(p1, o1) == DocKey(p2, o2) {
      if SkipCache(o1) && !SkipCache(o2) {
        KeysWithDifferentSkipCacheDiffer(p1, p2);
      } else if !SkipCache(o1) && SkipCache(o2) {
        KeysWithDifferentSkipCacheDiffer(p2, p1);
      } else {
        SameHashSamePath(p1, p2, HashOptions(o1));
      }
    }
  }
}

=== FILE: read_cell.dfy ===
/**
 * The read cell every cache hands to its readers: nothing yet, the latest
 * value, or an error. Reading it returns the value, rethrows the error, or
 * suspends (the source throws a promise the caller can wait on).
 */
module ReadCell {

  datatype Cell<+T, +E> = Pending | Ready(value: T) | Failed(error: E)

  /** What a call to `read()` does. */
  datatype ReadOutcome<+T, +E> = Suspends | Returns(value: T) | Throws(error: E)

  function Read<T, E>(c: Cell<T, E>): ReadOutcome<T, E> {
    match c
    case Pending => Suspends
    case Ready(v) => Returns(v)
    case Failed(e) => Throws(e)
  }

  /** Reading distinguishes all three states, so the cell can be recovered
      from what `read()` does: suspension is never mistaken for an error. */
  lemma ReadIsFaithful<T, E>(c: Cell<T, E>, d: Cell<T, E>)
    ensures Read(c) == Read(d) <==> c == d
    ensures Read(c).Suspends? <==> c.Pending?
  {
  }
}

=== FILE: request_cache.dfy ===
/**
 * `src/useObservable/requestCache.ts`: a registry of in-flight promises keyed
 * by request id, each wrapped in an `ActiveRequest` that records the
 * promise's outcome, plus the module-level `preloadRequest` /
 * `usePreloadedRequest` pair that reads it. The module-level singleton
 * `requestCache` is passed explicitly as state.
 */
module RequestCache {
  import opened Base
  import opened Js
  import opened ReadCell

  /** What an `ActiveRequest` has recorded; `value` and `error` start as
      `undefined`. */
  datatype ActiveRequest = ActiveRequest(isComplete: bool, value: JsValue, error: JsValue)

  /** How the wrapped promise settled. */
  datatype Settlement = Fulfilled(value: JsValue) | Rejected(reason: JsValue)

  /** A freshly constructed request: its promise has not settled. */
  function NewRequest(): (r: ActiveRequest)
    ensures !r.isComplete && r.value == Undefined && r.error == Undefined
  {
    ActiveRequest(false, Undefined, Undefined)
  }

  /** `setValue`: stores the value and marks the request complete. */
  function SetValue(r: ActiveRequest, v: JsValue): (s: ActiveRequest)
    ensures s.isComplete && s.value == v && s.error == r.error
  {
    r.(value := v, isComplete := true)
  }

  /** `setError`: stores the error and marks the request complete. */
  function SetError(r: ActiveRequest, err: JsValue): (s: ActiveRequest)
    ensures s.isComplete && s.error == err && s.value == r.value
  {
    r.(error := err, isComplete := true)
  }

  /** The constructor's `then`/`catch` handlers running once the promise
      settles. */
  function OnSettled(r: ActiveRequest, s: Settlement): (q: ActiveRequest)
    ensures q.isComplete
    ensures s.Fulfilled? ==> q.value == s.value && q.error == r.error
    ensures s.Rejected? ==> q.error == s.reason && q.value == r.value
  {
    match s
    case Fulfilled(v) => SetValue(r, v)
    case Rejected(err) => SetError(r.(isComplete := true), err)
  }

  type RequestRef = nat

  /** `activeRequests`, with the requests themselves in a heap so that a
      request keeps settling after it has been removed from the map. */
  datatype RequestCache = RequestCache(
    active: map<string, RequestRef>,
    requests: map<RequestRef, ActiveRequest>,
    nextRef: RequestRef)

  ghost predicate Valid(c: RequestCache) {
    && (forall id :: id in c.active ==> c.active[id] in c.requests)
    && (forall ref :: ref in c.requests ==> ref < c.nextRef)
  }

  function Empty(): (c: RequestCache)
    ensures Valid(c) && c.active == map[]
  {
    RequestCache(map[], map[], 0)
  }

  function MissingMessage(id: string): string {
    "No request with ID \"" + id + "\" exists"
  }

  function InUseMessage(id: string): string {
    "request \"" + id + "\" is already in use."
  }

  /** `getRequest`: the request under `id`, or the error it throws. */
  function GetRequest(c: RequestCache, id: string): (r: Result<RequestRef, string>)
    ensures r.Ok? <==> id in c.active
    ensures r.Ok? ==> r.value == c.active[id]
    ensures r.Err? ==> r.error == MissingMessage(id)
  {
    if id in c.active then Ok(c.active[id]) else Err(MissingMessage(id))
  }

  datatype Created = Created(cache: RequestCache, request: RequestRef)

  /** `createRequest`: refuses an id in use; otherwise stores a new,
      incomplete request under exactly that id. */
  function CreateRequest(c: RequestCache, id: string): (r: Result<Created, string>)
    requires Valid(c)
    ensures r.Err? <==> id in c.active
    ensures r.Err? ==> r.error == InUseMessage(id)
    ensures r.Ok? ==>
              && Valid(r.value.cache)
              && r.value.cache.active == c.active[id := r.value.request]
              && r.value.request !in c.requests
              && r.value.cache.requests == c.requests[r.value.request := NewRequest()]
  {
    if id in c.active then Err(InUseMessage(id))
    else
      var ref := c.nextRef;
      Ok(Created(RequestCache(c.active[id := ref], c.requests[ref := NewRequest()], ref + 1), ref))
  }

  datatype Deduped = Deduped(cache: RequestCache, request: RequestRef, promiseRequested: bool)

  /** `createDedupedRequest`: calls `getPromise` only for an absent id, and
      otherwise hands back the existing request with nothing changed. It
      never throws. */
  function CreateDedupedRequest(c: RequestCache, id: string): (r: Deduped)
    requires Valid(c)
    ensures Valid(r.cache)
    ensures r.promiseRequested <==> id !in c.active
    ensures !r.promiseRequested ==> r.cache == c && r.request == c.active[id]
    ensures id in r.cache.active && r.cache.active[id] == r.request
    ensures r.promiseRequested ==> Ok(Created(r.cache, r.request)) == CreateRequest(c, id)
  {
    if id in c.active then Deduped(c, c.active[id], false)
    else
      var created := CreateRequest(c, id).value;
      Deduped(created.cache, created.request, true)
  }

  /** `createDedupedRequest` when `getPromise()` may throw: for an absent id
      a throw propagates before `createRequest` runs, so nothing is stored;
      a stored id never calls it. */
  function CreateDedupedRequestOrThrow(c: RequestCache, id: string, getPromise: Completion<()>): (r: Result<Deduped, JsValue>)
    requires Valid(c)
    ensures r.Err? <==> id !in c.active && getPromise.Abrupt?
    ensures r.Err? ==> r.error == getPromise.thrown
    ensures r.Ok? ==> r.value == CreateDedupedRequest(c, id)
  {
    if id !in c.active && getPromise.Abrupt? then Err(getPromise.thrown) else Ok(CreateDedupedRequest(c, id))
  }

  /** A throwing `getPromise` leaves nothing behind: the next call for the
      same id asks for a promise again and stores its request. */
  lemma ThrowingGetPromiseLeavesNoRequest(c: RequestCache, id: string, thrown: JsValue)
    requires Valid(c) && id !in c.active
    ensures CreateDedupedRequestOrThrow(c, id, Abrupt(thrown)) == Err(thrown)
    ensures var r := CreateDedupedRequestOrThrow(c, id, Normal(()));
            r.Ok? && r.value.promiseRequested && id in r.value.cache.active
  {
  }

  /** `removeRequest`: forgets `id`, if present; the request object itself
      is untouched. */
  function RemoveRequest(c: RequestCache, id: string): (r: RequestCache)
    requires Valid(c)
    ensures Valid(r)
    ensures r.active == c.active - {id} && r.requests == c.requests
    ensures id !in c.active ==> r == c
  {
    c.(active := c.active - {id})
  }

  /** The request's promise settling; a promise settles at most once, so
      only a request that has not completed settles. */
  function Settle(c: RequestCache, ref: RequestRef, s: Settlement): (r: RequestCache)
    requires Valid(c)
    requires ref in c.requests ==> !c.requests[ref].isComplete
    ensures Valid(r) && r.active == c.active
    ensures ref in c.requests ==> r.requests == c.requests[ref := OnSettled(c.requests[ref], s)]
    ensures ref !in c.requests ==> r == c
  {
    if ref in c.requests then c.(requests := c.requests[ref := OnSettled(c.requests[ref], s)]) else c
  }

  datatype Preloaded = Preloaded(requestId: string, request: RequestRef)

  /** `preloadRequest`: the deduplicated request paired with the id it was
      asked for. */
  function PreloadRequest(c: RequestCache, id: string): (r: (RequestCache, Preloaded))
    requires Valid(c)
    ensures Valid(r.0)
    ensures r.1.requestId == id
    ensures r.0 == CreateDedupedRequest(c, id).cache && r.1.request == CreateDedupedRequest(c, id).request
  {
    var d := CreateDedupedRequest(c, id);
    (d.cache, Preloaded(id, d.request))
  }

  /** What `usePreloadedRequest` throws: the `Error` of `getRequest`, or the
      request's own error value. */
  datatype Thrown = ErrorWithMessage(message: string) | Raised(value: JsValue)

  /** `usePreloadedRequest`: suspend on an incomplete request, throw a
      truthy error, and otherwise return the value; a falsy error falls
      through to the value. */
  function UsePreloadedRequest(c: RequestCache, p: Preloaded): (r: ReadOutcome<JsValue, Thrown>)
    requires Valid(c)
    ensures p.requestId !in c.active ==> r == Throws(ErrorWithMessage(MissingMessage(p.requestId)))
    ensures p.requestId in c.active ==>
              var q := c.requests[c.active[p.requestId]];
              && (r.Suspends? <==> !q.isComplete)
              && (r.Throws? <==> q.isComplete && Truthy(q.error))
              && (r.Throws? ==> r.error == Raised(q.error))
              && (r.Returns? ==> r.value == q.value)
  {
    match GetRequest(c, p.requestId)
    case Err(msg) => Throws(ErrorWithMessage(msg))
    case Ok(ref) =>
      var q := c.requests[ref];
      if !q.isComplete then Suspends
      else if Truthy(q.error) then Throws(Raised(q.error))
      else Returns(q.value)
  }

  /** Round trip: preloading an absent id and letting its promise fulfil
      with `v` makes `usePreloadedRequest` return `v`; before that it
      suspends. */
  lemma PreloadThenFulfil(c: RequestCache, id: string, v: JsValue)
    requires Valid(c) && id !in c.active
    ensures var (c1, p) := PreloadRequest(c, id);
            && UsePreloadedRequest(c1, p) == Suspends
            && UsePreloadedRequest(Settle(c1, p.request, Fulfilled(v)), p) == Returns(v)
  {
  }

  /** A rejection with a truthy reason is rethrown; one with a falsy reason
      (`0`, `""`, `null`, ...) falls through to the never-set value,
      `undefined`. */
  lemma PreloadThenReject(c: RequestCache, id: string, reason: JsValue)
    requires Valid(c) && id !in c.active
    ensures var (c1, p) := PreloadRequest(c, id);
            var out := UsePreloadedRequest(Settle(c1, p.request, Rejected(reason)), p);
            && (Truthy(reason) ==> out == Throws(Raised(reason)))
            && (!Truthy(reason) ==> out == Returns(Undefined))
  {
  }

  /** Creating a request under an id already in use fails however it was
      made, and the deduplicating variant then returns the request already
      there. */
  lemma CreateTwice(c: RequestCache, id: string)
    requires Valid(c)
    ensures var d := CreateDedupedRequest(c, id);
            && CreateRequest(d.cache, id) == Err(InUseMessage(id))
            && CreateDedupedRequest(d.cache, id) == Deduped(d.cache, d.request, false)
  {
  }

  /** Removing an id makes `getRequest` fail for it and leaves every other
      id bound as before. */
  lemma RemoveThenGet(c: RequestCache, id: string, other: string)
    requires Valid(c)
    ensures GetRequest(RemoveRequest(c, id), id) == Err(MissingMessage(id))
    ensures other != id ==> GetRequest(RemoveRequest(c, id), other) == GetRequest(c, other)
  {
  }
}

=== FILE: resource.dfy ===
/**
 * `src/resource/index.ts`: `Resource<T>`, a promise-backed cell whose
 * `result` is set at most once. The executor runs inside the constructor,
 * so resolving or rejecting synchronously settles the resource before the
 * constructor returns; resolving with a promise-like defers settlement to
 * whatever that thenable later calls back. An executor that throws before
 * settling rejects the native promise behind the resource but leaves
 * `result` unset.
 */
module Resource {
  import opened Base
  import opened Js
  import opened ReadCell

  /** The source's `Result<T>`: `{ success: true, value }` or
      `{ success: false, error }`. */
  datatype Settled = Success(value: JsValue) | Failure(error: JsValue)

  /** `isPromiseLike`: a non-null object whose `then` is a function. */
  predicate IsPromiseLike(p: JsValue) {
    TypeOf(p) == "object" && p != Null && HasCallableThen(p)
  }

  /** Exactly the objects with a callable `then`; functions, `null` and
      primitives never are, whatever their properties. */
  lemma PromiseLikeIsThenableObject(p: JsValue)
    ensures IsPromiseLike(p) <==> p.Obj? && p.thenIsFunction
  {
  }

  /** A resource: its `result`, if set, the thenables it was resolved with,
      each of which will call back `wrappedResolve` or `wrappedReject`, and
      the settlement of the native `promise` behind it, which `then`,
      `catch` and `read`'s suspension observe. */
  datatype Resource = Resource(result: Option<Settled>, following: seq<JsValue>, promise: Option<Settled>)

  const Unsettled := Resource(None, [], None)

  /** A call of `wrappedResolve` or `wrappedReject`, by the executor or by a
      followed thenable. */
  datatype Call = Resolve(value: JsValue) | Reject(reason: JsValue)

  /** Whether a call settles an unsettled resource: a rejection, or a
      resolution with a value that is not promise-like. */
  predicate Settles(c: Call) {
    c.Reject? || !IsPromiseLike(c.value)
  }

  function SettlementOf(c: Call): Settled
    requires Settles(c)
  {
    match c
    case Resolve(v) => Success(v)
    case Reject(e) => Failure(e)
  }

  /** Setting `result` and calling `res` / `rej`; the native promise
      ignores the call when it has already settled. */
  function SetResult(r: Resource, st: Settled): Resource {
    r.(result := Some(st), promise := if r.promise.None? then Some(st) else r.promise)
  }

  /** `wrappedResolve` / `wrappedReject`. */
  function Deliver(r: Resource, c: Call): (s: Resource)
    ensures r.result.Some? ==> s == r
    ensures r.result.None? && Settles(c) ==> s.result == Some(SettlementOf(c)) && s.following == r.following
    ensures r.result.None? && Settles(c) && r.promise.None? ==> s.promise == s.result
    ensures r.promise.Some? ==> s.promise == r.promise
    ensures r.result.None? && !Settles(c) ==> s == r.(following := r.following + [c.value])
  {
    if r.result.Some? then r
    else
      match c
      case Resolve(v) =>
        if IsPromiseLike(v) then r.(following := r.following + [v]) else SetResult(r, Success(v))
      case Reject(e) => SetResult(r, Failure(e))
  }

  function DeliverAll(r: Resource, calls: seq<Call>): Resource
    decreases |calls|
  {
    if |calls| == 0 then r else DeliverAll(Deliver(r, calls[0]), calls[1..])
  }

  /** Settle once: after the result is set, no later resolve or reject
      changes anything. */
  lemma {:induction false} SettledStaysSettled(r: Resource, calls: seq<Call>)
    requires r.result.Some?
    ensures DeliverAll(r, calls) == r
    decreases |calls|
  {
    if |calls| > 0 {
      SettledStaysSettled(Deliver(r, calls[0]), calls[1..]);
    }
  }

  /** The first settling call decides the result; calls that only hand over
      a thenable leave the resource unsettled. */
  lemma {:induction false} FirstSettlingCallWins(r: Resource, calls: seq<Call>)
    requires r.result.None?
    ensures (forall i :: 0 <= i < |calls| ==> !Settles(calls[i])) <==> DeliverAll(r, calls).result.None?
    ensures forall i :: 0 <= i < |calls| && Settles(calls[i]) && (forall j :: 0 <= j < i ==> !Settles(calls[j]))
                     ==> DeliverAll(r, calls).result == Some(SettlementOf(calls[i]))
    decreases |calls|
  {
    if |calls| > 0 {
      var r1 := Deliver(r, calls[0]);
      if Settles(calls[0]) {
        SettledStaysSettled(r1, calls[1..]);
      } else {
        FirstSettlingCallWins(r1, calls[1..]);
        assert forall i :: 1 <= i < |calls| ==> calls[i] == calls[1..][i - 1];
      }
    }
  }

  /** While nothing has rejected the native promise behind `result`'s back,
      the promise settles exactly when, and as, the result does. */
  lemma {:induction false} PromiseTracksResult(r: Resource, calls: seq<Call>)
    requires r.promise == r.result
    ensures DeliverAll(r, calls).promise == DeliverAll(r, calls).result
    decreases |calls|
  {
    if |calls| > 0 {
      PromiseTracksResult(Deliver(r, calls[0]), calls[1..]);
    }
  }

  /** A settled native promise never changes again, whatever is called back
      later. */
  lemma {:induction false} PromiseSettledStays(r: Resource, calls: seq<Call>)
    requires r.promise.Some?
    ensures DeliverAll(r, calls).promise == r.promise
    decreases |calls|
  {
    if |calls| > 0 {
      PromiseSettledStays(Deliver(r, calls[0]), calls[1..]);
    }
  }

  /** A set result never holds a promise-like value: resolving with one
      defers instead. */
  lemma {:induction false} SuccessIsNeverPromiseLike(r: Resource, calls: seq<Call>)
    requires r.result.Some? && r.result.value.Success? ==> !IsPromiseLike(r.result.value.value)
    ensures var s := DeliverAll(r, calls);
            s.result.Some? && s.result.value.Success? ==> !IsPromiseLike(s.result.value.value)
    decreases |calls|
  {
    if |calls| > 0 {
      SuccessIsNeverPromiseLike(Deliver(r, calls[0]), calls[1..]);
    }
  }

  /** `new Resource(executor)`: the executor's calls, made synchronously,
      by an executor that returns normally. */
  function Construct(executorCalls: seq<Call>): (r: Resource)
    ensures r.result.None? <==> forall i :: 0 <= i < |executorCalls| ==> !Settles(executorCalls[i])
    ensures forall i :: 0 <= i < |executorCalls| && Settles(executorCalls[i])
                     && (forall j :: 0 <= j < i ==> !Settles(executorCalls[j]))
                     ==> r.result == Some(SettlementOf(executorCalls[i]))
    ensures r.promise == r.result
  {
    FirstSettlingCallWins(Unsettled, executorCalls);
    PromiseTracksResult(Unsettled, executorCalls);
    DeliverAll(Unsettled, executorCalls)
  }

  /** `new Resource(executor)` for an executor that ends with `ends`: after
      its calls it returns, or it throws, either itself or because a
      thenable's `then` threw inside `wrappedResolve`. `new Promise` turns
      the throw into a rejection of the native promise, unless that has
      already settled; `result` is never touched by it. */
  function ConstructOrThrow(executorCalls: seq<Call>, ends: Completion<()>): (r: Resource)
    ensures ends.Normal? ==> r == Construct(executorCalls)
    ensures r.result.None? <==> forall i :: 0 <= i < |executorCalls| ==> !Settles(executorCalls[i])
    ensures r.result.Some? ==> r == Construct(executorCalls) && r.promise == r.result
    ensures ends.Abrupt? && r.result.None? ==> r.promise == Some(Failure(ends.thrown))
  {
    var r := Construct(executorCalls);
    if ends.Abrupt? && r.promise.None? then r.(promise := Some(Failure(ends.thrown))) else r
  }

  /** An executor that throws before anything settles strands `read()`: it
      suspends, while the native promise is rejected with the thrown value,
      so `then` without a rejection handler yields that rejection. Later
      callbacks from followed thenables may still set `result`, but never
      change the promise: `read()` and `then` then disagree. */
  lemma ThrowingExecutorStrandsRead(executorCalls: seq<Call>, x: JsValue, later: seq<Call>, onFulfill: Option<Handler>)
    requires forall i :: 0 <= i < |executorCalls| ==> !Settles(executorCalls[i])
    ensures Read(ConstructOrThrow(executorCalls, Abrupt(x))) == Suspends
    ensures ConstructOrThrow(executorCalls, Abrupt(x)).promise == Some(Failure(x))
    ensures ThenSettlement(ConstructOrThrow(executorCalls, Abrupt(x)).promise.value, onFulfill, None)
         == Some(Failure(x))
    ensures DeliverAll(ConstructOrThrow(executorCalls, Abrupt(x)), later).promise == Some(Failure(x))
  {
    PromiseSettledStays(ConstructOrThrow(executorCalls, Abrupt(x)), later);
  }

  /** An executor that makes one call. */
  lemma ConstructOne(c: Call)
    ensures Construct([c]) == Deliver(Unsettled, c)
  {
    assert [c][1..] == [];
    assert DeliverAll(Unsettled, [c]) == DeliverAll(Deliver(Unsettled, c), []);
  }

  /** `read()`: suspend without a result, return the value on success,
      throw the stored error unchanged on failure. */
  function Read(r: Resource): (out: ReadOutcome<JsValue, JsValue>)
    ensures out.Suspends? <==> r.result.None?
    ensures out.Returns? <==> r.result.Some? && r.result.value.Success?
    ensures out.Returns? ==> out.value == r.result.value.value
    ensures out.Throws? ==> out.error == r.result.value.error
  {
    match r.result
    case None => Suspends
    case Some(Success(v)) => Returns(v)
    case Some(Failure(e)) => Throws(e)
  }

  /** `Resource.resolve(v)` and `Resource.reject(e)` settle before they
      return, unless `v` is promise-like, in which case reading suspends
      until it calls back. */
  lemma StaticConstructors(v: JsValue, e: JsValue)
    ensures !IsPromiseLike(v) ==> Read(Construct([Resolve(v)])) == Returns(v)
    ensures IsPromiseLike(v) ==> Read(Construct([Resolve(v)])) == Suspends
    ensures Read(Construct([Reject(e)])) == Throws(e)
  {
    ConstructOne(Resolve(v));
    ConstructOne(Reject(e));
  }

  /** An executor that resolves with a thenable and then rejects settles as
      rejected at once; the thenable's later callback is ignored. */
  lemma LaterDirectCallBeatsThenable(thenable: JsValue, e: JsValue, late: Call)
    requires IsPromiseLike(thenable)
    ensures Construct([Resolve(thenable), Reject(e)]).result == Some(Failure(e))
    ensures Read(Deliver(Construct([Resolve(thenable), Reject(e)]), late)) == Throws(e)
  {
    var calls := [Resolve(thenable), Reject(e)];
    assert calls[1..] == [Reject(e)];
    assert Construct(calls) == DeliverAll(Deliver(Unsettled, calls[0]), [Reject(e)]);
    assert [Reject(e)][1..] == [];
  }

  /** A `then`/`catch` handler: it returns a value or throws one. */
  type Handler = JsValue -> Completion<JsValue>

  /** What `promise.then(onFulfill, onReject)` settles to once the source
      promise has settled with `s`: a missing handler passes the settlement
      through, the matching handler's return value fulfils and its throw
      rejects. `None` when the handler returned a thenable, which the
      derived native promise adopts, so that its later outcome decides. */
  function ThenSettlement(s: Settled, onFulfill: Option<Handler>, onReject: Option<Handler>): (r: Option<Settled>)
    ensures s.Success? && onFulfill.None? ==> r == Some(s)
    ensures s.Failure? && onReject.None? ==> r == Some(s)
    ensures s.Success? && onFulfill.Some? ==> r == HandlerSettlement(onFulfill.value(s.value))
    ensures s.Failure? && onReject.Some? ==> r == HandlerSettlement(onReject.value(s.error))
    ensures r.Some? && r.value.Success? ==> !HasCallableThen(r.value.value) || r == Some(s)
  {
    match s
    case Success(v) =>
      if onFulfill.None? then Some(s) else HandlerSettlement(onFulfill.value(v))
    case Failure(e) =>
      if onReject.None? then Some(s) else HandlerSettlement(onReject.value(e))
  }

  /** How a native promise resolved by a handler's completion settles: a
      throw rejects, a returned thenable (an object or a function whose
      `then` is callable) is adopted and settles later, any other value
      fulfils. Native adoption is wider than `isPromiseLike`: it includes
      functions. */
  function HandlerSettlement(c: Completion<JsValue>): (r: Option<Settled>)
    ensures c.Abrupt? ==> r == Some(Failure(c.thrown))
    ensures c.Normal? && !HasCallableThen(c.value) ==> r == Some(Success(c.value))
    ensures c.Normal? && HasCallableThen(c.value) ==> r.None?
  {
    match c
    case Normal(u) => if HasCallableThen(u) then None else Some(Success(u))
    case Abrupt(x) => Some(Failure(x))
  }

  /** Every promise-like value is adopted by a native promise, and so is a
      function whose `then` is callable, which `isPromiseLike` rejects. */
  lemma AdoptionIsWiderThanPromiseLike(v: JsValue)
    ensures IsPromiseLike(v) ==> HasCallableThen(v)
    ensures HasCallableThen(v) && !IsPromiseLike(v) <==> v.Fun? && v.thenIsFunction
    ensures v.Fun? && v.thenIsFunction ==> HandlerSettlement(Normal(v)).None?
  {
  }

  /** `resource.catch(g)` is `then` with only a rejection handler. */
  function CatchSettlement(s: Settled, onReject: Handler): (r: Option<Settled>)
    ensures s.Success? ==> r == Some(s)
    ensures s.Failure? ==> r == HandlerSettlement(onReject(s.error))
  {
    ThenSettlement(s, None, Some(onReject))
  }

  /** The resource `then`/`catch` return: `Resource.resolve` of the derived
      native promise `derived`, which is promise-like, so it starts unsettled
      and settles when the derived promise calls back. */
  lemma DerivedResourceSettlesLater(derived: JsValue, s: Settled)
    requires IsPromiseLike(derived)
    requires s.Success? ==> !IsPromiseLike(s.value)
    ensures Read(Construct([Resolve(derived)])) == Suspends
    ensures var call := if s.Success? then Resolve(s.value) else Reject(s.error);
            Read(Deliver(Construct([Resolve(derived)]), call))
              == (if s.Success? then Returns(s.value) else Throws(s.error))
  {
    ConstructOne(Resolve(derived));
  }

  function AddOne(x: JsValue): Completion<JsValue> {
    if x.Num? then Normal(Num(x.n + 1)) else Abrupt(Str("not a number"))
  }

  function SubtractOne(x: JsValue): Completion<JsValue> {
    if x.Num? then Normal(Num(x.n - 1)) else Abrupt(Str("not a number"))
  }

  /** The mapping cases of `resource.test.ts`. */
  lemma MappingExamples()
    ensures ThenSettlement(Success(Num(8)), Some(AddOne), None) == Some(Success(Num(9)))
    ensures CatchSettlement(Failure(Num(3)), AddOne) == Some(Success(Num(4)))
    ensures ThenSettlement(Failure(Num(1)), None, Some(SubtractOne)) == Some(Success(Num(0)))
    ensures ThenSettlement(Success(Num(0)), Some(_ => Abrupt(Num(5))), None) == Some(Failure(Num(5)))
    ensures CatchSettlement(Failure(Num(4)), (x: JsValue) => if x.Num? then Abrupt(Num(x.n * 2)) else Abrupt(x))
         == Some(Failure(Num(8)))
  {
  }

  /** A successful settlement skips a rejection handler and a failed one
      skips a fulfilment handler: `catch(g)` never touches a success, and
      `then(f)` alone never touches a failure; the matching handler is the
      one applied. */
  lemma HandlersApplyToTheirSide(s: Settled, f: Handler, g: Handler)
    ensures s.Success? ==> ThenSettlement(s, None, Some(g)) == Some(s) && CatchSettlement(s, g) == Some(s)
    ensures s.Failure? ==> ThenSettlement(s, Some(f), None) == Some(s)
    ensures s.Success? ==> ThenSettlement(s, Some(f), None) == HandlerSettlement(f(s.value))
    ensures s.Failure? ==> CatchSettlement(s, g) == HandlerSettlement(g(s.error))
    ensures s.Success? ==> ThenSettlement(s, Some(f), Some(g)) == HandlerSettlement(f(s.value))
    ensures s.Failure? ==> ThenSettlement(s, Some(f), Some(g)) == HandlerSettlement(g(s.error))
  {
  }

  /** `then(f, g)` splits into `then(f)` on a success and `catch(g)` on a
      failure, and `then()` with no handler is the identity. */
  lemma ThenSplits(s: Settled, f: Option<Handler>, g: Handler)
    ensures ThenSettlement(s, f, Some(g))
         == (if s.Success? then ThenSettlement(s, f, None) else CatchSettlement(s, g))
    ensures ThenSettlement(s, None, None) == Some(s)
  {
  }

  /** The eager `then` kept in a comment beside the method: on an already
      settled resource, run the matching handler inside a new resource's
      executor and resolve with its value, or pass the settlement through.
      A handler that throws ends the executor without calling back, so the
      resource it builds never sets its result, though its promise rejects. */
  function EagerThen(s: Settled, onFulfill: Option<Handler>, onReject: Option<Handler>): Resource {
    var handler := if s.Success? then onFulfill else onReject;
    var arg := if s.Success? then s.value else s.error;
    if handler.None? then
      Construct([if s.Success? then Resolve(s.value) else Reject(s.error)])
    else
      match handler.value(arg)
      case Normal(u) => Construct([Resolve(u)])
      case Abrupt(x) => ConstructOrThrow([], Abrupt(x))
  }

  /** The eager `then` agrees with the promise-based one whenever the
      applied handler returns a value that is neither promise-like nor
      adopted; when the handler throws, the promise-based `then` and the
      eager one's promise reject, while the eager one's `read()` would
      suspend for ever. */
  lemma EagerThenAgrees(s: Settled, onFulfill: Option<Handler>, onReject: Option<Handler>)
    requires s.Success? ==> !HasCallableThen(s.value)
    ensures var handler := if s.Success? then onFulfill else onReject;
            var arg := if s.Success? then s.value else s.error;
            (handler.None? || (handler.value(arg).Normal? && !HasCallableThen(handler.value(arg).value)))
              ==> EagerThen(s, onFulfill, onReject).result == ThenSettlement(s, onFulfill, onReject)
    ensures var handler := if s.Success? then onFulfill else onReject;
            var arg := if s.Success? then s.value else s.error;
            (handler.Some? && handler.value(arg).Abrupt?)
              ==> EagerThen(s, onFulfill, onReject).result.None?
                  && ThenSettlement(s, onFulfill, onReject) == Some(Failure(handler.value(arg).thrown))
                  && EagerThen(s, onFulfill, onReject).promise == ThenSettlement(s, onFulfill, onReject)
  {
    var handler := if s.Success? then onFulfill else onReject;
    var arg := if s.Success? then s.value else s.error;
    ConstructOne(if s.Success? then Resolve(s.value) else Reject(s.error));
    if handler.Some? && handler.value(arg).Normal? {
      ConstructOne(Resolve(handler.value(arg).value));
    }
  }
}

=== FILE: resourcify.dfy ===
/**
 * `resource/index.ts` of the older revision: `resourcify(func)` wraps `func`
 * so that calling the wrapper runs `func` at once and captures how it ended
 * in a resource; the wrapper itself never throws, and `read()` replays the
 * captured outcome without running `func` again.
 *
 * `func` may have side effects, so it is a function of a state `S` that it
 * may change; the state after a wrapped call records that `func` ran once.
 */
module Resourcify {
  import opened Js

  /** What the wrapper returns: a resource holding the value or the error. */
  datatype Captured<+T> = Holds(value: T) | Raises(error: JsValue)

  /** `read()` of a captured outcome. */
  function Read<T>(r: Captured<T>): (out: Completion<T>)
    ensures r.Holds? <==> out.Normal?
  {
    match r
    case Holds(t) => Normal(t)
    case Raises(err) => Abrupt(err)
  }

  /** Calling the wrapped function: runs `func` once on `args` and captures
      its outcome. The result is a value, never a throw. */
  function WrappedCall<S, A, T>(func: (S, A) -> (S, Completion<T>), s: S, args: A): (out: (S, Captured<T>))
    ensures out.0 == func(s, args).0
    ensures Read(out.1) == func(s, args).1
  {
    var (s1, c) := func(s, args);
    match c
    case Normal(t) => (s1, Holds(t))
    case Abrupt(err) => (s1, Raises(err))
  }

  /** Each outcome is replayed as-is: a returned `t` is what `read()`
      returns, a thrown `err` is what it rethrows; reading needs no state,
      so it never runs `func` again. */
  lemma ReplaysOutcome<S, A, T>(func: (S, A) -> (S, Completion<T>), s: S, args: A)
    ensures var (s1, r) := WrappedCall(func, s, args);
            && s1 == func(s, args).0
            && (func(s, args).1.Normal? ==> r == Holds(func(s, args).1.value))
            && (func(s, args).1.Abrupt? ==> r == Raises(func(s, args).1.thrown))
            && Read(r) == func(s, args).1
  {
  }

  /** Two wrapped calls run `func` twice: the outcome is captured per call,
      not cached across calls. */
  lemma EachCallRunsFunc<A, T>(args: A, t: T)
    ensures var counting := (calls: int, a: A) => (calls + 1, Normal(t));
            var (s1, _) := WrappedCall(counting, 0, args);
            var (s2, _) := WrappedCall(counting, s1, args);
            s1 == 1 && s2 == 2
  {
  }
}
